=== FILE: README.md ===
# Playback engine of the zeppelin music server, in Dafny

This project models the part of the zeppelin music server that decides what is
played: the **play queue** and the **playback controller**.

- The **queue** is a tree. Its root is a playlist. Below the root are albums
  or directories, and the leaves are library files. Every container keeps a
  cursor `index` into its children, and the chain of cursors from the root
  selects one file. The operations are:
  - `get` and `set`, which read and write the cursor chain as a path of
    integers;
  - `reset(FIRST|LAST)`, which selects the first or last file;
  - `prev` and `next`, which step the cursor in depth-first order;
  - `file`, which reads the selected file;
  - `clone` and `add`.
- The **controller** keeps two trees of one shape.
  - The *decoder* tree has a cursor that runs ahead to feed the decoder.
  - The *player* tree has a cursor on the song being heard.
  - Commands (PLAY, PAUSE, STOP, SEEK, PREV, NEXT, GOTO, REMOVE, REMOVE_ALL,
    DECODER_FINISHED, SONG_FINISHED) are taken one at a time from a queue.
    Each one runs to completion under the controller's lock.
  - The controller moves between STOPPED, PLAYING and PAUSED.
  - It tells the decoder and player workers to start, stop, pause, seek or
    take a new input.

The model is written in terms of pure functions.

- A queue operation returns the updated tree. `prev` and `next` also return
  their boolean result.
- A command is a transition `Step(engine, command, env)`. It returns the new
  controller state and the list of calls it makes into the workers, in order.
- `env` holds two things the controller cannot see inside:
  - whether a codec can open a file;
  - the playlist's removal of a subtree.
- The decoder's "initialized" flag and its input always change together.
  They are one field, `input: Option<LibraryFile>`.

Modules:

- `Queue` (`queue.dfy`): the tree and its operations, following
  `src/player/queue.cpp`.
- `QueueLemmas` (`queue_lemmas.dfy`): properties that relate several queue
  calls:
  - the `get`/`set` round trip;
  - where `reset` lands;
  - `next` and `prev` undoing each other.
- `Traversal` (`traversal.dfy`):
  - a measure that every successful `next` decreases, so loops that call
    `next` until it fails terminate;
  - the trail of files such a loop meets;
  - the proof that from `reset(FIRST)` the trail lists every file once, in
    depth-first order.
- `Controller` (`controller.dfy`): the command loop of
  `src/player/controller.cpp`, plus:
  - volume control;
  - the queue additions;
  - the status read;
  - the helpers `setDecoderInput`, `invalidateDecoder` and
    `setDecoderToPlayerIndex`.
- `ControllerLemmas` (`controller_lemmas.dfy`):
  - the invariant every command keeps;
  - properties of command sequences;
  - the inputs that show the defects listed under Findings.

## Model

| member | source | states |
|---|---|---|
| Queue.NewContainer | src/player/queue.cpp:10-13 | a new container holds no files, its cursor is -1 (invalid), its path reads `[-1]` and it selects no file |
| Queue.ValidAddressesChild | src/player/queue.cpp:35-38 | a file is always valid; a container is valid exactly when its cursor addresses one of its children |
| Queue.IsValid | src/player/queue.cpp:35-38 | the validity test of `isValid`: true for a file, and for a container whose cursor lies in the range of its children |
| Queue.SelectedFile | src/player/queue.cpp:92-95 | the file `file()` returns: the one the cursor chain reaches, or none where a level's cursor is out of range (see `Queue.SelectedFileAddressed`) |
| Queue.Get | src/player/queue.cpp:16-22 | a file contributes nothing to the path; a container contributes its own cursor first |
| Queue.GetAddressesCursor | src/player/queue.cpp:16-22 | the path passes through containers only; its last entry is the cursor of the last container reached, which is either out of range or selects a file |
| Queue.Set | src/player/queue.cpp:25-32 | writing a path never changes the tree's shape (its files and containers); reading the path back gives a prefix of the written path, ended by -1 where the path ran out |
| Queue.SetAsWritten | src/player/queue.cpp:25-32 | the code as written succeeds exactly when the path reaches the end of the cursor chain it sets, and then it agrees with `Set` |
| Queue.Reset | src/player/queue.cpp:41-53 | the shape is kept; an empty container is unchanged; otherwise the cursor goes to the first or the last child |
| Queue.Prev | src/player/queue.cpp:56-71 | a failed step leaves the tree unchanged; a successful one starts and ends at a valid cursor; the shape is kept |
| Queue.Next | src/player/queue.cpp:74-89 | a failed step leaves the tree unchanged; a successful one starts and ends at a valid cursor; the shape is kept |
| QueueLemmas.PrevInPlaceIsPrev | src/player/queue.cpp:56-71 | `prev` with the child's result written back at every level, as the code mutates it in place, gives the same result and tree as `Prev` |
| QueueLemmas.NextInPlaceIsNext | src/player/queue.cpp:74-89 | `next` with the child's result written back at every level, as the code mutates it in place, gives the same result and tree as `Next` |
| Queue.SelectedFileAddressed | src/player/queue.cpp:92-95 | the selected file is the leaf that the cursor path leads to, and it is one of the tree's files; no file is selected exactly when the path leads to no leaf |
| Queue.FileItems | src/player/queue.cpp:171-172 | one file leaf per library file, in order, so the files of the result are the given files |
| Queue.MakeAlbum | src/player/queue.cpp:167-173 | a new album holds exactly the given files, in order, as direct leaves, with nothing selected |
| Queue.Clone | src/player/queue.cpp:182-193 | a copy equals the original, including every level's cursor |
| Queue.AddFile | src/player/queue.cpp:202-205 | the new last child is exactly the file leaf `File(f)`; the existing children and the cursor are kept |
| Queue.AddAlbum | src/player/queue.cpp:208-212 | the new last child is a new album of the given files with cursor -1, so the album's files follow the existing files; the existing children and the cursor are kept |
| Queue.AddDirectory | src/player/controller.cpp:77-84 | the new last child is a directory container of the given files with cursor -1, so its files follow the existing files; the existing children and the cursor are kept |
| Queue.Clear | src/player/controller.cpp:419-420 | the playlist has no files left and its cursor is -1 |
| Queue.AppendKeepsShape | src/player/controller.cpp:68-94 | adding the same child to two trees of one shape gives two trees of one shape |
| QueueLemmas.GetSetRoundTrip | src/player/queue.cpp:16-32 | a path read from one tree and written into a tree of the same shape reads back unchanged, and the code as written does not run out of path on the way |
| QueueLemmas.SetOwnPath | src/player/queue.cpp:16-32 | writing a tree's own path back into it changes nothing |
| QueueLemmas.SamePathSameFile | src/player/controller.cpp:528-534 | two trees of one shape whose paths read the same select the same file |
| QueueLemmas.ResetSelectsFirst | src/player/queue.cpp:41-53 | on a tree without empty containers, `reset(FIRST)` selects the tree's first file |
| QueueLemmas.ResetSelectsLast | src/player/queue.cpp:41-53 | on a tree without empty containers, `reset(LAST)` selects the tree's last file |
| QueueLemmas.PrevFailsAtFirst | src/player/queue.cpp:56-71 | `prev` straight after `reset(FIRST)` fails |
| QueueLemmas.NextFailsAtLast | src/player/queue.cpp:74-89 | `next` straight after `reset(LAST)` fails |
| QueueLemmas.LastIsFixed | src/player/queue.cpp:74-89 | a cursor chain that selects a file and cannot step forward already sits where `reset(LAST)` puts it |
| QueueLemmas.FirstIsFixed | src/player/queue.cpp:56-71 | a cursor chain that selects a file and cannot step back already sits where `reset(FIRST)` puts it |
| QueueLemmas.NextThenPrev | src/player/queue.cpp:56-89 | from a selected file, a successful `next` followed by `prev` succeeds and returns to the same path |
| QueueLemmas.PrevThenNext | src/player/queue.cpp:56-89 | from a selected file, a successful `prev` followed by `next` succeeds and returns to the same path |
| QueueLemmas.NextCrossesAlbums | src/player/queue.cpp:74-89 | with album A (3 files) then album B (2 files) and the cursor at [0,2], `next` moves to [1,0], the first file of B |
| Traversal.ResetKeepsSize | src/player/queue.cpp:41-53 | `reset` keeps the number of nodes |
| Traversal.RemainingBelowSize | src/player/queue.cpp:74-89 | the number of further forward steps is smaller than the number of nodes |
| Traversal.NextDecreases | src/player/queue.cpp:74-89 | every successful `next` strictly decreases the number of further forward steps, so a loop calling `next` until it fails ends |
| Traversal.Trail | src/player/queue.cpp:74-89 | the selections met by calling `next` until it fails start with the current selection |
| Traversal.TrailSplit | src/player/queue.cpp:74-89 | the trail of a container is the rest of the selected child's trail, then each later child's trail from its first file |
| Traversal.TrailFromFirst | src/player/queue.cpp:41-89 | from `reset(FIRST)`, on a tree without empty containers, repeated `next` visits exactly the tree's files, in depth-first order, each once |
| Controller.Initial | src/player/controller.cpp:13-39 | a new controller is stopped, has no decoder input, has two playlists with no children and cursor -1, and has full volume |
| Controller.SetVolume | src/player/controller.cpp:164-174 | a level between 0 and 100 is taken exactly; any other level is ignored; nothing but the volume changes |
| Controller.IncVolume | src/player/controller.cpp:177-186 | one step up, except at 100 where nothing changes; the volume stays between 0 and 100 |
| Controller.DecVolume | src/player/controller.cpp:189-198 | one step down, except at 0 where nothing changes; the volume stays between 0 and 100 |
| Controller.Enqueue | src/player/controller.cpp:68-94 | both trees get the same new last child (a file leaf, or an album or directory container with cursor -1) and stay of one shape; cursors, state and input are untouched |
| Controller.GetQueue | src/player/controller.cpp:42-46 | the queue handed out equals the player tree, including its cursor path |
| Controller.GetStatus | src/player/controller.cpp:49-65 | with a valid player cursor the status carries its path and exactly the file the cursor selects, which is a file of the queue at that path; otherwise it carries neither; state, volume and position are copied |
| Controller.StopPlayback | src/player/controller.cpp:482-488 | the player worker is stopped first, then the decoder worker; nothing is started |
| Controller.StartPlayback | src/player/controller.cpp:475-479 | the decoder worker is started first, then the player worker; nothing is stopped |
| Controller.AlignDecoder | src/player/controller.cpp:528-534 | the decoder tree keeps its shape and afterwards reads the same path as the player tree |
| Controller.FirstOpenable | src/player/controller.cpp:491-518 | the result opens, and every earlier entry of the trail is a file that does not open or no file; there is no result exactly when no entry opens |
| Controller.SetDecoderInput | src/player/controller.cpp:491-518 | the input becomes the first file of the decoder's trail that opens, or none; the decoder cursor then selects that file; the shape is kept; the worker gets exactly that input |
| Controller.SetDecoderInputStops | src/player/controller.cpp:491-518 | the decoder cursor only moves forward along its trail, past positions holding no file that opens, so it stops on the first file that opens; when none opens it stops at the end of the trail; an invalid cursor is left where it was |
| Controller.SetDecoderInputAsWritten | src/player/controller.cpp:491-518 | the code as written fails exactly when its trail reaches a position with no file before any file that opens; otherwise it agrees with `SetDecoderInput` |
| Controller.DoPlay | src/player/controller.cpp:223-246 | ignored when playing; the player cursor is reset to the first file when the decoder cursor is invalid (where the decoder cursor ends is `Controller.PlayPosition`); an existing input is kept; the controller plays exactly when it has an input, and only then are the workers started |
| Controller.PlayPosition | src/player/controller.cpp:223-246 | when not playing, PLAY leaves the decoder cursor at its start position (the first file if it was invalid) when an input is kept, and otherwise moves it from there along the trail past positions holding no file that opens only |
| Controller.DoPause | src/player/controller.cpp:248-258 | only a playing controller pauses, and it pauses the output only |
| Controller.DoStop | src/player/controller.cpp:424-441 | an active controller stops both workers (player first) and drops the input, and its decoder cursor is moved to the player's; otherwise nothing happens |
| Controller.DoSeekAsWritten | src/player/controller.cpp:260-286 | the code as written keeps the state and seeks both workers whenever the controller is active |
| Controller.DoSeek | src/player/controller.cpp:260-286 | the corrected SEEK of the Findings, which `Step` runs: ignored unless active; reloads the input at the player's path; a paused controller stays paused; a playing one keeps playing exactly when an input opens; workers start only with an input (where the decoder cursor ends is `Controller.SeekPosition`) |
| Controller.SeekPosition | src/player/controller.cpp:270-276 | SEEK on an active controller puts the decoder cursor on the player's path, then moves it along the trail from there past positions holding no file that opens only |
| Controller.Resume | src/player/controller.cpp:323-339 | reloading at the decoder cursor: the input becomes the first file of the trail that opens; with one, both workers are started and the state is kept; without one, nothing is started and the controller stops (where the decoder cursor ends is `Controller.ResumePosition`) |
| Controller.ResumePosition | src/player/controller.cpp:323-339 | reloading moves the decoder cursor along its trail past positions holding no file that opens only |
| Controller.MovePlayer | src/player/controller.cpp:300-318 | PREV, NEXT and GOTO move the player cursor without changing the tree's shape |
| Controller.DoMove | src/player/controller.cpp:288-342 | the player cursor moves; an active controller first stops the workers and drops the input; a stopped or paused controller keeps its state with the decoder cursor on the player's; a playing one reloads the input there and keeps playing exactly when a file opens (where the decoder cursor ends is `Controller.MovePosition`) |
| Controller.MovePosition | src/player/controller.cpp:320-339 | PREV, NEXT and GOTO while playing put the decoder cursor on the player's new path, then move it along the trail from there past positions holding no file that opens only |
| Controller.RemovingCurrent | src/player/controller.cpp:355-370 | the removal hits the current song exactly when the player cursor is valid and the removal path agrees with the cursor path wherever both have an entry |
| Controller.DoRemove | src/player/controller.cpp:344-404 | both trees lose the subtree; a removal that misses the current song changes nothing else; one that hits it stops an active controller, drops the input and reloads it from the decoder cursor, and a playing controller keeps playing exactly when a file opens (where the decoder cursor ends is `Controller.RemovePosition`) |
| Controller.RemovePosition | src/player/controller.cpp:387-401 | a removal that hits the current song reloads from the decoder cursor the removal left, moving it along the trail past positions holding no file that opens only |
| Controller.DoRemoveAll | src/player/controller.cpp:406-422 | both trees are emptied with invalid cursors; an active controller is stopped with no input; an idle one keeps its state and input |
| Controller.DoDecoderFinished | src/player/controller.cpp:443-458 | the new input is the first file that opens after the current one on the decoder's trail; decoding restarts exactly when there is one; the output is never started (where the cursor ends is `Controller.DecoderFinishedAdvances`) |
| Controller.DecoderFinishedAdvances | src/player/controller.cpp:443-458 | after a successful `next`, the decoder cursor moves on from there along the trail, past positions holding no file that opens only |
| Controller.DoSongFinished | src/player/controller.cpp:460-467 | the player cursor selects the next entry of its trail, or the controller stops when there is none (the exact position is `Controller.SongFinishedAdvances`) |
| Controller.SongFinishedAdvances | src/player/controller.cpp:460-467 | a successful step leaves the player cursor exactly one position further along its trail |
| Controller.Step | src/player/controller.cpp:221-467 | no command changes the volume or breaks the shared shape of the two trees; decoding starts only with an input (SEEK runs the corrected `DoSeek`; as written it can start decoding with none); output starts only when playing; workers are stopped only by an active controller |
| ControllerLemmas.StepKeepsInv | src/player/controller.cpp:221-467 | every command keeps the invariant: trees of one shape, volume between 0 and 100, an input only if it opens |
| ControllerLemmas.EnqueueKeepsInv | src/player/controller.cpp:68-94 | adding to the queue keeps the invariant |
| ControllerLemmas.Run | src/player/controller.cpp:209-470 | running the command loop over any list of commands keeps the volume, and an empty list changes nothing |
| ControllerLemmas.RunKeepsInv | src/player/controller.cpp:209-470 | any run of commands from a state meeting the invariant ends in one meeting it |
| ControllerLemmas.IncThenDec | src/player/controller.cpp:177-198 | below 100, one step up then one step down changes nothing |
| ControllerLemmas.DecThenInc | src/player/controller.cpp:177-198 | above 0, one step down then one step up changes nothing |
| ControllerLemmas.StopThenPlayResumesCurrent | src/player/controller.cpp:223-441 | STOP then PLAY resumes playing the song that was being heard, when it still opens, with exactly one new input and a restart of both workers |
| ControllerLemmas.PauseThenPlay | src/player/controller.cpp:223-258 | from PLAYING with an input and a valid decoder cursor, PAUSE then PLAY returns to the same state, pausing the output and then starting both workers |
| ControllerLemmas.PauseThenPlayAfterDecoderEnd | src/player/controller.cpp:223-458 | once DECODER_FINISHED has run out of files, a PLAYING controller has no input; PAUSE then PLAY then loads the file under the decoder cursor, the last one, again and restarts both workers |
| ControllerLemmas.GoToCurrent | src/player/controller.cpp:288-342 | GOTO to the current path leaves the player cursor where it is |
| ControllerLemmas.NextThenPrevWhileStopped | src/player/controller.cpp:288-342 | while stopped, NEXT then PREV returns the player cursor to the same path, and the decoder cursor follows it |
| ControllerLemmas.PlayOnEmptyQueue | src/player/controller.cpp:223-246 | PLAY with an empty queue and no input loads nothing, starts no worker and keeps the state |
| ControllerLemmas.PlayAfterRemoveAll | src/player/controller.cpp:344-422 | REMOVE of a stopped controller's current song reloads the input from the next file; REMOVE_ALL while stopped keeps it; PLAY then plays that file with both trees empty |
| ControllerLemmas.PlayFromScratch | src/player/controller.cpp:223-246 | PLAY on a queue that was never started and holds no empty playlist, album or directory loads the first file, in depth-first order, that opens, and plays exactly when some file opens (the empty queue is `PlayOnEmptyQueue`) |
| ControllerLemmas.EmptyAlbumThenPlay | src/player/controller.cpp:491-518 | with an empty album queued, PLAY makes the code as written read past the album's children; the corrected reload finds no input and the controller stays stopped |
| ControllerLemmas.ShortGoToPath | src/player/queue.cpp:25-32 | GOTO with a path that ends at an album, or an empty path, makes `set` as written read past the end of the path; the corrected `Set` leaves the album's cursor at -1 |
| ControllerLemmas.SeekWithNothingToOpen | src/player/controller.cpp:260-286 | SEEK while playing a file that no longer opens restarts the workers with no input as written; corrected, the controller stops |

## Left out

- Threads, the mutex, the condition variable and the command list: each command is one atomic transition. `Run` is the loop over an already queued list.
- The sample FIFO, the ALSA output, the decoder and player workers' internals, and codecs: a worker call is an `Effect`. Whether a file opens is the parameter `Env.openable`.
- The volume filter takes `level / 100.0f`, a floating-point gain. Only the integer level is modelled.
- The player's position in `getStatus` comes from the player worker. It is a parameter of `GetStatus`.
- The body of `Playlist::remove` is not part of this model. `Env.remove` stands for it. The shape invariant assumes `SoundRemoval`: the shape of a removal's result depends only on the shape of its input.
- The bodies of `Playlist::clear` and of `Playlist::add` for a directory are not part of this model. `Clear` leaves an empty playlist with cursor -1. `AddDirectory` adds a container of the directory's files, like an album.
- The `QueueItem::type()` and `items()` accessors, `Album::album()` and the `zeppelin::library` record types: the model carries only the file identity, path and name, and the album or directory id.
- Logging, and the construction of the decoder and player threads in the constructor.
- Queue.SelectedFile: returns `None` where `file()` would read out of range. The defect is recorded under Findings.
- Controller.Step: SEEK is handed to the corrected `DoSeek`, like the other two Findings, whose corrected `Set` and `SetDecoderInput` the commands use. The code as written is `DoSeekAsWritten`, which can start decoding with no input, so `Step`'s clause that decoding starts only with an input does not hold of the code as written.
- ControllerLemmas.Run: states only that the volume is kept and that an empty run changes nothing. The invariant is stated in `RunKeepsInv`.

The model follows the code's statements, except for the three defects listed under Findings, where the commands use the corrected definitions. Where the statements do something other than a comment or a plausible reading suggests, the model does what the statements do:

- PLAY resets both cursors when the *decoder* cursor is invalid, whatever the player cursor is. The comment at src/player/controller.cpp:229 speaks of "an undefined state".
- `set` stores any index it is given. Cursors are unconstrained integers, and in the model every read checks validity; in the code `file()` does not, which is the first row of the Findings.
- After DECODER_FINISHED has run out of files, a PLAYING controller has no input, and PAUSE then PLAY decodes the last file again (`ControllerLemmas.PauseThenPlayAfterDecoderEnd`).
- REMOVE reloads the decoder's input whatever the state, and REMOVE_ALL keeps the input of a stopped controller. PLAY can then play a file that is no longer queued (`ControllerLemmas.PlayAfterRemoveAll`). Which of the two statements is unintended cannot be told from the code, so this is not listed under Findings.

## Findings

| source | as written | input that shows it | evidently intended | confidence | as-written member | corrected member |
|---|---|---|---|---|---|---|
| src/player/controller.cpp:491-518 | the reload loop checks only the root's cursor before calling `file()`; `file()` indexes every deeper level without a check (`getStatus` at src/player/controller.cpp:54-58 does the same) | queue one album with no files, then PLAY: the playlist cursor is 0, the album's cursor stays -1, and `file()` reads the album's child -1 | a position whose cursor chain reaches no file is skipped like a file that cannot be opened | medium, not executed | ControllerLemmas.EmptyAlbumThenPlay | Controller.SetDecoderInput |
| src/player/queue.cpp:25-32 | `set` takes the path's first entry without checking that the path has one | GOTO `[0]` on a playlist whose first child is an album (or GOTO `[]`): the album's `set` reads the front of an empty path | a missing entry leaves the cursor invalid (-1) | medium, not executed | ControllerLemmas.ShortGoToPath | Queue.Set |
| src/player/controller.cpp:260-286 | SEEK in PLAYING restarts both workers after `setDecoderInput` whether or not an input was found | PLAYING one file that no longer opens, then SEEK 30: the decoder is started with no input and the state stays PLAYING | stop when no input opens, as PREV, NEXT, GOTO and REMOVE do | medium, not executed | ControllerLemmas.SeekWithNothingToOpen | Controller.DoSeek |

=== FILE: controller.dfy ===
/**
 The playback controller: a state machine over STOPPED / PLAYING / PAUSED that
 owns two queue trees of one shape, the decoder tree (whose cursor runs ahead
 to feed the decoder) and the player tree (whose cursor is the song being
 heard). Commands are taken from a queue one at a time and each runs to
 completion, so every command is a pure transition here. The decoder and
 player workers are outside the model; the calls made into them are returned
 as a list of effects. Whether a library file can be opened by a codec, and
 how the playlist removes a subtree, are parameters.
 */
module Controller {
  import opened Queue
  import opened QueueLemmas
  import opened Traversal

  datatype State = Stopped | Playing | Paused

  /** Calls made into the decoder and player workers, in the order they are made. */
  datatype Effect =
    | StartDecoding
    | StopDecoding
    | StartOutput
    | StopOutput
    | PauseOutput
    | SetInput(input: Option<LibraryFile>)
    | SeekDecoder(seconds: int)
    | SeekOutput(seconds: int)

  /**
   The controller's state. `input` is the file the decoder was last given;
   the decoder counts as initialized exactly when it is present.
   */
  datatype Engine = Engine(
    state: State,
    input: Option<LibraryFile>,
    decoder: Playlist,
    player: Playlist,
    volume: int)

  datatype Command =
    | Play
    | Pause
    | Stop
    | Seek(seconds: int)
    | Prev
    | Next
    | GoTo(path: seq<int>)
    | Remove(path: seq<int>)
    | RemoveAll
    | DecoderFinished
    | SongFinished

  datatype Transition = Transition(engine: Engine, effects: seq<Effect>)

  /**
   What lies outside the controller: whether a codec can open a file, and the
   playlist's removal of the subtree a path names.
   */
  datatype Env = Env(openable: LibraryFile -> bool, remove: (Playlist, seq<int>) -> Playlist)

  /** The removal changes the shape of a tree in a way that depends only on its shape. */
  ghost predicate SoundRemoval(remove: (Playlist, seq<int>) -> Playlist)
  {
    forall a: Playlist, b: Playlist, p: seq<int> ::
      Shape(a) == Shape(b) ==> Shape(remove(a, p)) == Shape(remove(b, p))
  }

  /** Under a sound removal, removing one path from two trees of one shape leaves two trees of one shape. */
  lemma RemovalKeepsShape(remove: (Playlist, seq<int>) -> Playlist, a: Playlist, b: Playlist, path: seq<int>)
    ensures SoundRemoval(remove) && Shape(a) == Shape(b) ==> Shape(remove(a, path)) == Shape(remove(b, path))
  {
  }

  const EmptyPlaylist: Playlist := NewContainer(PlaylistKind)

  /** The controller as constructed: stopped, no input, empty queues, full volume. */
  function Initial(): (e: Engine)
    ensures e.state == Stopped && e.input.None? && e.volume == 100
    ensures Leaves(e.player) == [] && Shape(e.decoder) == Shape(e.player)
    ensures !IsValid(e.decoder) && !IsValid(e.player)
    ensures e.decoder.items == [] && e.player.items == [] && e.decoder.index == -1 && e.player.index == -1
  {
    SetVolume(Engine(Stopped, None, EmptyPlaylist, EmptyPlaylist, 0), 100)
  }

  /* ---------------------------------------------------------------------------
     Volume
     --------------------------------------------------------------------------- */

  /** Out-of-range levels are ignored; any other level is taken exactly. */
  function SetVolume(e: Engine, level: int): (r: Engine)
    ensures 0 <= level <= 100 ==> r.volume == level
    ensures !(0 <= level <= 100) ==> r.volume == e.volume
    ensures 0 <= e.volume <= 100 ==> 0 <= r.volume <= 100
    ensures r.(volume := e.volume) == e
  {
    if level < 0 || level > 100 then e else e.(volume := level)
  }

  /** One step up, staying at 100. */
  function IncVolume(e: Engine): (r: Engine)
    ensures 0 <= e.volume <= 100 ==> 0 <= r.volume <= 100
    ensures e.volume < 100 ==> r.volume == e.volume + 1
    ensures e.volume == 100 ==> r == e
    ensures r.(volume := e.volume) == e
  {
    if e.volume == 100 then e else e.(volume := e.volume + 1)
  }

  /** One step down, staying at 0. */
  function DecVolume(e: Engine): (r: Engine)
    ensures 0 <= e.volume <= 100 ==> 0 <= r.volume <= 100
    ensures e.volume > 0 ==> r.volume == e.volume - 1
    ensures e.volume == 0 ==> r == e
    ensures r.(volume := e.volume) == e
  {
    if e.volume == 0 then e else e.(volume := e.volume - 1)
  }

  /* ---------------------------------------------------------------------------
     Queue additions and reads
     --------------------------------------------------------------------------- */

  datatype Addition =
    | OneFile(file: LibraryFile)
    | WholeAlbum(album: int, files: seq<LibraryFile>)
    | WholeDirectory(directory: int, files: seq<LibraryFile>)

  function AddedFiles(a: Addition): seq<LibraryFile>
  {
    match a
    case OneFile(f) => [f]
    case WholeAlbum(_, files) => files
    case WholeDirectory(_, files) => files
  }

  function AddTo(pl: Playlist, a: Addition): Playlist
  {
    match a
    case OneFile(f) => AddFile(pl, f)
    case WholeAlbum(album, files) => AddAlbum(pl, album, files)
    case WholeDirectory(directory, files) => AddDirectory(pl, directory, files)
  }

  /** The same addition goes to both trees; cursors and state are untouched. */
  function Enqueue(e: Engine, a: Addition): (r: Engine)
    ensures Shape(e.decoder) == Shape(e.player) ==> Shape(r.decoder) == Shape(r.player)
    ensures Leaves(r.player) == Leaves(e.player) + AddedFiles(a)
    ensures Leaves(r.decoder) == Leaves(e.decoder) + AddedFiles(a)
    ensures r.decoder.index == e.decoder.index && r.player.index == e.player.index
    ensures |r.decoder.items| == |e.decoder.items| + 1 && |r.player.items| == |e.player.items| + 1
    ensures r.decoder.items[..|e.decoder.items|] == e.decoder.items
    ensures r.player.items[..|e.player.items|] == e.player.items
    ensures r == e.(decoder := r.decoder, player := r.player)
    ensures a.OneFile? ==>
      r.decoder.items[|e.decoder.items|] == File(a.file) && r.player.items[|e.player.items|] == File(a.file)
    ensures a.WholeAlbum? ==>
      && r.decoder.items[|e.decoder.items|] == MakeAlbum(AlbumKind(a.album), a.files)
      && r.player.items[|e.player.items|] == MakeAlbum(AlbumKind(a.album), a.files)
    ensures a.WholeDirectory? ==>
      && r.decoder.items[|e.decoder.items|] == MakeAlbum(DirectoryKind(a.directory), a.files)
      && r.player.items[|e.player.items|] == MakeAlbum(DirectoryKind(a.directory), a.files)
  {
    var child := match a
      case OneFile(f) => File(f)
      case WholeAlbum(album, files) => MakeAlbum(AlbumKind(album), files)
      case WholeDirectory(directory, files) => MakeAlbum(DirectoryKind(directory), files);
    assert AddTo(e.decoder, a) == Append(e.decoder, child);
    assert AddTo(e.player, a) == Append(e.player, child);
    var r := e.(decoder := AddTo(e.decoder, a), player := AddTo(e.player, a));
    if Shape(e.decoder) == Shape(e.player) then AppendKeepsShape(e.decoder, e.player, child); r else r
  }

  /** A snapshot of the play queue, as handed out to callers. */
  function GetQueue(e: Engine): (q: Playlist)
    ensures q == e.player && Get(q) == Get(e.player)
  {
    Clone(e.player)
  }

  datatype Status = Status(
    file: Option<LibraryFile>,
    path: seq<int>,
    state: State,
    position: nat,
    volume: int)

  /**
   The status read: the selected file and its path when the player cursor is
   valid, the state, the player's position (read from the player worker,
   hence a parameter) and the volume.
   */
  function GetStatus(e: Engine, position: nat): (s: Status)
    ensures s.state == e.state && s.volume == e.volume && s.position == position
    ensures IsValid(e.player) ==> s.path == Get(e.player) && |s.path| >= 1
    ensures !IsValid(e.player) ==> s.path == [] && s.file.None?
    ensures s.file.Some? ==> s.file.value in Leaves(e.player)
    ensures s.file.Some? ==> At(e.player, s.path) == Some(File(s.file.value))
    ensures IsValid(e.player) ==> s.file == SelectedFile(e.player)
  {
    SelectedFileAddressed(e.player);
    if IsValid(e.player) then Status(SelectedFile(e.player), Get(e.player), e.state, position, e.volume)
    else Status(None, [], e.state, position, e.volume)
  }

  /* ---------------------------------------------------------------------------
     Helpers of the command loop
     --------------------------------------------------------------------------- */

  /**
   Stopping the workers: the player first, since it could otherwise keep
   sending requests to a decoder that is being stopped, then the decoder.
   */
  function StopPlayback(): (r: seq<Effect>)
    ensures |r| == 2 && r[0] == StopOutput && r[1] == StopDecoding
    ensures StartDecoding !in r && StartOutput !in r
  {
    [StopOutput, StopDecoding]
  }

  /** Starting the workers: the decoder first, then the player. */
  function StartPlayback(): (r: seq<Effect>)
    ensures |r| == 2 && r[0] == StartDecoding && r[1] == StartOutput
    ensures StopOutput !in r && StopDecoding !in r
  {
    [StartDecoding, StartOutput]
  }

  predicate Active(s: State)
  {
    s == Playing || s == Paused
  }

  /** The stop calls made before a command changes the input of running workers. */
  function Halt(s: State): seq<Effect>
  {
    if Active(s) then StopPlayback() else []
  }

  /** Joining two lists of worker calls keeps the first as a prefix and starts or stops nothing new. */
  lemma JoinEffects(a: seq<Effect>, b: seq<Effect>)
    ensures |a + b| >= |a| && (a + b)[..|a|] == a
    ensures StartDecoding in a + b <==> StartDecoding in a || StartDecoding in b
    ensures StartOutput in a + b <==> StartOutput in a || StartOutput in b
    ensures StopOutput in a + b <==> StopOutput in a || StopOutput in b
  {
  }

  /** Moves the decoder cursor to where the player cursor is. */
  function AlignDecoder(e: Engine): (r: Engine)
    ensures Shape(r.decoder) == Shape(e.decoder)
    ensures r == e.(decoder := r.decoder)
    ensures Shape(e.decoder) == Shape(e.player) ==> Get(r.decoder) == Get(e.player)
  {
    var r := e.(decoder := Set(e.decoder, Get(e.player)));
    if Shape(e.decoder) == Shape(e.player) then GetSetRoundTrip(e.player, e.decoder); r else r
  }

  /** The selection is a file a codec can open. */
  predicate Opens(s: Option<LibraryFile>, openable: LibraryFile -> bool)
  {
    s.Some? && openable(s.value)
  }

  /** The first entry of a trail that is a file a codec can open. */
  function FirstOpenable(trail: seq<Option<LibraryFile>>, openable: LibraryFile -> bool): (r: Option<LibraryFile>)
    ensures r.Some? ==> openable(r.value)
    ensures r.Some? ==> exists k :: 0 <= k < |trail| && trail[k] == r &&
                                    forall m :: 0 <= m < k ==> !Opens(trail[m], openable)
    ensures r.None? <==> forall k :: 0 <= k < |trail| ==> !Opens(trail[k], openable)
  {
    if trail == [] then None
    else if Opens(trail[0], openable) then trail[0]
    else
      var r := FirstOpenable(trail[1..], openable);
      assert forall k :: 1 <= k < |trail| ==> trail[k] == trail[1..][k - 1];
      if r.Some? then
        var k :| 0 <= k < |trail[1..]| && trail[1..][k] == r &&
          forall m :: 0 <= m < k ==> !Opens(trail[1..][m], openable);
        assert trail[k + 1] == r;
        r
      else r
  }

  /**
   Points the decoder at the file under the decoder cursor, stepping the
   cursor forward past files that cannot be opened until one opens or the
   queue is exhausted; in that case the decoder is left without input.
   A cursor chain that reaches no file is stepped past like a file that
   cannot be opened (see `SetDecoderInputAsWritten`).
   */
  function SetDecoderInput(e: Engine, openable: LibraryFile -> bool): (r: Transition)
    ensures r.engine.input == FirstOpenable(Trail(e.decoder), openable)
    ensures r.engine.input.Some? ==> SelectedFile(r.engine.decoder) == r.engine.input
    ensures Shape(r.engine.decoder) == Shape(e.decoder)
    ensures r.engine == e.(decoder := r.engine.decoder, input := r.engine.input)
    ensures r.effects == [SetInput(r.engine.input)]
    decreases Remaining(e.decoder)
  {
    var here := SelectedFile(e.decoder);
    if !IsValid(e.decoder) then
      Transition(e.(input := None), [SetInput(None)])
    else if Opens(here, openable) then
      Transition(e.(input := here), [SetInput(here)])
    else if !Queue.Next(e.decoder).0 then
      Transition(e.(input := None), [SetInput(None)])
    else
      NextDecreases(e.decoder);
      assert Trail(e.decoder)[1..] == Trail(Queue.Next(e.decoder).1);
      SetDecoderInput(e.(decoder := Queue.Next(e.decoder).1), openable)
  }

  /**
   Where `SetDecoderInput` leaves the decoder cursor: further along its trail,
   past positions that hold no file that opens only, so on the first file
   that opens when there is one (the trail's first entry is the selection);
   at the end of the trail when none opens; and where it was when the cursor
   was invalid.
   */
  lemma {:induction false} SetDecoderInputStops(e: Engine, openable: LibraryFile -> bool)
    ensures var d := SetDecoderInput(e, openable).engine.decoder;
      && Skipped(e.decoder, d, openable)
      && (!IsValid(e.decoder) ==> d == e.decoder)
      && (IsValid(e.decoder) && SetDecoderInput(e, openable).engine.input.None? ==> !Queue.Next(d).0)
    decreases Remaining(e.decoder)
  {
    var d := SetDecoderInput(e, openable).engine.decoder;
    if IsValid(e.decoder) && !Opens(SelectedFile(e.decoder), openable) && Queue.Next(e.decoder).0 {
      NextDecreases(e.decoder);
      var u := Queue.Next(e.decoder).1;
      assert SetDecoderInput(e, openable) == SetDecoderInput(e.(decoder := u), openable);
      SetDecoderInputStops(e.(decoder := u), openable);
      BehindStep(Trail(e.decoder), Trail(u), Trail(d), openable);
    }
  }

  /**
   The cursor of `after` sits further along the trail of `before`, and every
   position passed over holds no file that opens.
   */
  predicate Skipped(before: Item, after: Item, openable: LibraryFile -> bool)
  {
    Behind(Trail(before), Trail(after), openable)
  }

  /** `rest` is a suffix of `trail`, and no entry before it opens. */
  predicate Behind(trail: seq<Option<LibraryFile>>, rest: seq<Option<LibraryFile>>, openable: LibraryFile -> bool)
  {
    && |rest| <= |trail|
    && rest == trail[|trail| - |rest|..]
    && forall m :: 0 <= m < |trail| - |rest| ==> !Opens(trail[m], openable)
  }

  lemma BehindStep(trail: seq<Option<LibraryFile>>, tail: seq<Option<LibraryFile>>, rest: seq<Option<LibraryFile>>,
                   openable: LibraryFile -> bool)
    requires |trail| >= 1 && trail[1..] == tail && !Opens(trail[0], openable)
    requires Behind(tail, rest, openable)
    ensures Behind(trail, rest, openable)
  {
    assert rest == trail[|trail| - |rest|..];
    forall m | 0 <= m < |trail| - |rest|
      ensures !Opens(trail[m], openable)
    {
      if m > 0 {
        assert trail[m] == tail[m - 1];
      }
    }
  }

  /** The trail reaches a position with no file before any file that opens. */
  predicate HoleFirst(trail: seq<Option<LibraryFile>>, openable: LibraryFile -> bool)
  {
    trail != [] && (trail[0].None? || (!openable(trail[0].value) && HoleFirst(trail[1..], openable)))
  }

  /**
   `setDecoderInput` as written: it guards `file()` with the root's `isValid()`
   only, and `file()` indexes every deeper level unchecked. `None` stands for
   the out-of-range read that happens when the chain reaches no file.
   */
  function SetDecoderInputAsWritten(e: Engine, openable: LibraryFile -> bool): (r: Option<Transition>)
    ensures r.Some? ==> r.value == SetDecoderInput(e, openable)
    ensures r.None? <==> IsValid(e.decoder) && HoleFirst(Trail(e.decoder), openable)
    decreases Remaining(e.decoder)
  {
    if !IsValid(e.decoder) then
      Some(Transition(e.(input := None), [SetInput(None)]))
    else match SelectedFile(e.decoder)
      case None => None
      case Some(f) =>
        if openable(f) then Some(Transition(e.(input := Some(f)), [SetInput(Some(f))]))
        else if !Queue.Next(e.decoder).0 then Some(Transition(e.(input := None), [SetInput(None)]))
        else
          NextDecreases(e.decoder);
          assert Trail(e.decoder)[1..] == Trail(Queue.Next(e.decoder).1);
          SetDecoderInputAsWritten(e.(decoder := Queue.Next(e.decoder).1), openable)
  }

  /* ---------------------------------------------------------------------------
     The commands
     --------------------------------------------------------------------------- */

  function DoPlay(e: Engine, env: Env): (r: Transition)
    ensures e.state == Playing ==> r == Transition(e, [])
    ensures e.state != Playing ==> (r.engine.state == Playing <==> r.engine.input.Some?)
    ensures r.engine.state != Playing ==> r.engine.state == e.state
    ensures e.state != Playing && !IsValid(e.decoder) ==> r.engine.player == Reset(e.player, First)
    ensures IsValid(e.decoder) ==> r.engine.player == e.player
    ensures e.state != Playing && e.input.None? ==>
      r.engine.input == FirstOpenable(Trail(if IsValid(e.decoder) then e.decoder else Reset(e.decoder, First)), env.openable)
    ensures e.input.Some? ==> r.engine.input == e.input
    ensures Shape(r.engine.decoder) == Shape(e.decoder) && Shape(r.engine.player) == Shape(e.player)
    ensures r.engine.volume == e.volume
    ensures StartDecoding in r.effects ==> r.engine.input.Some? && r.engine.state == Playing
    ensures StartOutput in r.effects ==> r.engine.state == Playing
    ensures StopOutput !in r.effects
  {
    if e.state == Playing then Transition(e, [])
    else
      var e1 := if IsValid(e.decoder) then e
                else e.(decoder := Reset(e.decoder, First), player := Reset(e.player, First));
      var t := if e1.input.Some? then Transition(e1, []) else SetDecoderInput(e1, env.openable);
      if t.engine.input.Some? then Transition(t.engine.(state := Playing), t.effects + StartPlayback())
      else t
  }

  function DoPause(e: Engine): (r: Transition)
    ensures e.state != Playing ==> r == Transition(e, [])
    ensures e.state == Playing ==> r.engine == e.(state := Paused) && r.effects == [PauseOutput]
  {
    if e.state != Playing then Transition(e, [])
    else Transition(e.(state := Paused), [PauseOutput])
  }

  function DoStop(e: Engine): (r: Transition)
    ensures !Active(e.state) ==> r == Transition(e, [])
    ensures Active(e.state) ==> r.engine.state == Stopped && r.engine.input.None?
    ensures Active(e.state) ==> r.engine.player == e.player && r.engine.volume == e.volume
    ensures Active(e.state) && Shape(e.decoder) == Shape(e.player) ==> Get(r.engine.decoder) == Get(e.player)
    ensures Shape(r.engine.decoder) == Shape(e.decoder)
    ensures Active(e.state) ==> r.effects == [StopOutput, StopDecoding, SetInput(None)]
  {
    if !Active(e.state) then Transition(e, [])
    else
      var a := AlignDecoder(e);
      Transition(a.(input := None, state := Stopped), StopPlayback() + [SetInput(None)])
  }

  /**
   SEEK as written: when PLAYING it restarts both workers after reloading the
   input, whether or not an input could be opened.
   */
  function DoSeekAsWritten(e: Engine, seconds: int, env: Env): (r: Transition)
    ensures !Active(e.state) ==> r == Transition(e, [])
    ensures r.engine.state == e.state
    ensures Active(e.state) ==> SeekDecoder(seconds) in r.effects && SeekOutput(seconds) in r.effects
  {
    if !Active(e.state) then Transition(e, [])
    else
      var t := SetDecoderInput(AlignDecoder(e), env.openable);
      if e.state == Playing then Transition(t.engine, Halt(Playing) + t.effects + [SeekDecoder(seconds), SeekOutput(seconds)] + StartPlayback())
      else Transition(t.engine, t.effects + [SeekDecoder(seconds), SeekOutput(seconds)])
  }

  /**
   SEEK: ignored unless PLAYING or PAUSED; realigns the decoder cursor to the
   player cursor, reloads the input there and seeks both workers. From
   PLAYING the workers restart only when an input was found; otherwise the
   controller stops, as the other commands that reload the input do.
   */
  function DoSeek(e: Engine, seconds: int, env: Env): (r: Transition)
    ensures !Active(e.state) ==> r == Transition(e, [])
    ensures e.state == Paused ==> r.engine.state == Paused
    ensures e.state == Playing ==> (r.engine.state == Playing <==> r.engine.input.Some?) && r.engine.state != Paused
    ensures Active(e.state) ==> SeekDecoder(seconds) in r.effects && SeekOutput(seconds) in r.effects
    ensures Active(e.state) && Shape(e.decoder) == Shape(e.player) ==>
      r.engine.input == FirstOpenable(Trail(Set(e.decoder, Get(e.player))), env.openable)
    ensures r.engine.player == e.player && r.engine.volume == e.volume
    ensures Shape(r.engine.decoder) == Shape(e.decoder)
    ensures StartDecoding in r.effects ==> r.engine.input.Some? && r.engine.state == Playing
    ensures StartOutput in r.effects ==> r.engine.state == Playing
    ensures StopOutput in r.effects ==> Active(e.state)
  {
    if !Active(e.state) then Transition(e, [])
    else
      var t := SetDecoderInput(AlignDecoder(e), env.openable);
      var seek := [SeekDecoder(seconds), SeekOutput(seconds)];
      if e.state == Paused then Transition(t.engine, t.effects + seek)
      else if t.engine.input.Some? then Transition(t.engine, StopPlayback() + t.effects + seek + StartPlayback())
      else Transition(t.engine.(state := Stopped), StopPlayback() + t.effects + seek)
  }

  /** Where PREV, NEXT and GOTO put the player cursor. */
  function MovePlayer(player: Playlist, cmd: Command): (r: Playlist)
    requires cmd.Prev? || cmd.Next? || cmd.GoTo?
    ensures Shape(r) == Shape(player)
  {
    match cmd
    case Prev => Queue.Prev(player).1
    case Next => Queue.Next(player).1
    case GoTo(path) => Set(player, path)
  }

  /**
   The tail shared by the commands that resume a PLAYING controller: reload
   the input at the decoder cursor, then restart both workers, or stop when
   no file opens.
   */
  function Resume(e: Engine, env: Env): (r: Transition)
    ensures r.engine.input == FirstOpenable(Trail(e.decoder), env.openable)
    ensures r.engine.state == (if r.engine.input.Some? then e.state else Stopped)
    ensures |r.effects| >= 1 && r.effects[0] == SetInput(r.engine.input)
    ensures StartDecoding in r.effects <==> r.engine.input.Some?
    ensures StartOutput in r.effects <==> r.engine.input.Some?
    ensures StopOutput !in r.effects
    ensures Shape(r.engine.decoder) == Shape(e.decoder)
    ensures r.engine == e.(decoder := r.engine.decoder, input := r.engine.input, state := r.engine.state)
  {
    var t := SetDecoderInput(e, env.openable);
    if t.engine.input.Some? then Transition(t.engine, t.effects + StartPlayback())
    else Transition(t.engine.(state := Stopped), t.effects)
  }

  /** What an active controller does before it changes the decoder's input: stop both workers, drop the input. */
  function HaltEffects(s: State): (r: seq<Effect>)
    ensures Active(s) ==> r == [StopOutput, StopDecoding, SetInput(None)]
    ensures !Active(s) ==> r == []
  {
    if Active(s) then StopPlayback() + [SetInput(None)] else []
  }

  /**
   PREV, NEXT and GOTO: stop and invalidate the decoder when active, move the
   player cursor, realign the decoder cursor to it and, when PLAYING, reload
   the input and restart, or stop when no input opens.
   */
  function DoMove(e: Engine, cmd: Command, env: Env): (r: Transition)
    requires cmd.Prev? || cmd.Next? || cmd.GoTo?
    ensures r.engine.player == MovePlayer(e.player, cmd)
    ensures e.state == Stopped ==> r.engine.state == Stopped && r.engine.input == e.input && r.effects == []
    ensures e.state == Paused ==> r.engine.state == Paused && r.engine.input.None?
    ensures e.state == Playing ==> (r.engine.state == Playing <==> r.engine.input.Some?) && r.engine.state != Paused
    ensures e.state != Playing && Shape(e.decoder) == Shape(e.player) ==> Get(r.engine.decoder) == Get(r.engine.player)
    ensures e.state == Playing && Shape(e.decoder) == Shape(e.player) ==>
      r.engine.input == FirstOpenable(Trail(Set(e.decoder, Get(r.engine.player))), env.openable)
    ensures |r.effects| >= |HaltEffects(e.state)| && r.effects[..|HaltEffects(e.state)|] == HaltEffects(e.state)
    ensures Shape(r.engine.decoder) == Shape(e.decoder) && r.engine.volume == e.volume
    ensures StartDecoding in r.effects ==> r.engine.input.Some? && r.engine.state == Playing
    ensures StartOutput in r.effects ==> r.engine.state == Playing
    ensures StopOutput in r.effects ==> Active(e.state)
  {
    var player := MovePlayer(e.player, cmd);
    match e.state
    case Stopped => Transition(AlignDecoder(e.(player := player)), [])
    case Paused => Transition(AlignDecoder(e.(input := None, player := player)), HaltEffects(Paused))
    case Playing =>
      var t := Resume(AlignDecoder(e.(input := None, player := player)), env);
      JoinEffects(HaltEffects(Playing), t.effects);
      Transition(t.engine, HaltEffects(Playing) + t.effects)
  }

  /**
   The check REMOVE makes: the player cursor is valid and the removal path
   agrees with the cursor path wherever both have an entry.
   */
  predicate RemovesCurrent(player: Item, path: seq<int>)
  {
    IsValid(player) &&
    forall i :: 0 <= i < |path| && i < |Get(player)| ==> path[i] == Get(player)[i]
  }

  /**
   The loop REMOVE runs to decide whether the removed subtree holds the
   current song.
   */
  method RemovingCurrent(player: Item, path: seq<int>) returns (removing: bool)
    ensures removing <==> RemovesCurrent(player, path)
  {
    removing := false;
    if IsValid(player) {
      var it := Get(player);
      removing := true;
      var i := 0;
      while i < |path| && i < |it|
        invariant 0 <= i <= |path| && i <= |it|
        invariant forall m :: 0 <= m < i ==> path[m] == it[m]
      {
        if path[i] != it[i] {
          removing := false;
          break;
        }
        i := i + 1;
      }
    }
  }

  /**
   REMOVE: when the removed subtree holds the current song, stop (if active)
   and invalidate the decoder before removing; the removal is applied to both
   trees; then reload the input and, if PLAYING, restart or stop.
   */
  function DoRemove(e: Engine, path: seq<int>, env: Env): (r: Transition)
    ensures r.engine.player == env.remove(e.player, path) && r.engine.volume == e.volume
    ensures !RemovesCurrent(e.player, path) ==>
      r == Transition(e.(decoder := env.remove(e.decoder, path), player := env.remove(e.player, path)), [])
    ensures RemovesCurrent(e.player, path) ==>
      && |r.effects| > |Halt(e.state)|
      && r.effects[..|Halt(e.state)| + 1] == Halt(e.state) + [SetInput(None)]
      && r.engine.input == FirstOpenable(Trail(env.remove(e.decoder, path)), env.openable)
      && Shape(r.engine.decoder) == Shape(env.remove(e.decoder, path))
    ensures RemovesCurrent(e.player, path) && e.state == Playing ==>
      (r.engine.state == Playing <==> r.engine.input.Some?) && r.engine.state != Paused
    ensures !(RemovesCurrent(e.player, path) && e.state == Playing) ==> r.engine.state == e.state
    ensures StartDecoding in r.effects ==> r.engine.input.Some? && r.engine.state == Playing
    ensures StartOutput in r.effects ==> r.engine.state == Playing
    ensures StopOutput in r.effects ==> Active(e.state)
  {
    var removed := e.(decoder := env.remove(e.decoder, path), player := env.remove(e.player, path));
    if !RemovesCurrent(e.player, path) then Transition(removed, [])
    else
      var halt := Halt(e.state) + [SetInput(None)];
      if e.state == Playing then
        var t := Resume(removed.(input := None), env);
        JoinEffects(halt, t.effects);
        Transition(t.engine, halt + t.effects)
      else
        var t := SetDecoderInput(removed.(input := None), env.openable);
        JoinEffects(halt, t.effects);
        Transition(t.engine, halt + t.effects)
  }

  /* ---------------------------------------------------------------------------
     Where the commands that reload the input leave the decoder cursor
     --------------------------------------------------------------------------- */

  /**
   `Resume` leaves the decoder cursor further along its trail, past
   positions holding no file that opens only.
   */
  lemma ResumePosition(e: Engine, env: Env)
    ensures Skipped(e.decoder, Resume(e, env).engine.decoder, env.openable)
  {
    SetDecoderInputStops(e, env.openable);
  }

  /**
   SEEK moves the decoder cursor to the player's path, then along the trail
   from there past positions holding no file that opens only.
   */
  lemma SeekPosition(e: Engine, seconds: int, env: Env)
    requires Active(e.state)
    ensures Skipped(Set(e.decoder, Get(e.player)), DoSeek(e, seconds, env).engine.decoder, env.openable)
  {
    SetDecoderInputStops(AlignDecoder(e), env.openable);
  }

  /**
   PREV, NEXT and GOTO while PLAYING move the decoder cursor to the player's
   new path, then along the trail from there past positions holding no file
   that opens only.
   */
  lemma MovePosition(e: Engine, cmd: Command, env: Env)
    requires cmd.Prev? || cmd.Next? || cmd.GoTo?
    requires e.state == Playing
    ensures Skipped(Set(e.decoder, Get(MovePlayer(e.player, cmd))), DoMove(e, cmd, env).engine.decoder, env.openable)
  {
    ResumePosition(AlignDecoder(e.(input := None, player := MovePlayer(e.player, cmd))), env);
  }

  /**
   A REMOVE that hits the current song reloads from the decoder cursor the
   removal left, moving it along the trail past positions holding no file
   that opens only.
   */
  lemma RemovePosition(e: Engine, path: seq<int>, env: Env)
    requires RemovesCurrent(e.player, path)
    ensures Skipped(env.remove(e.decoder, path), DoRemove(e, path, env).engine.decoder, env.openable)
  {
    var removed := e.(decoder := env.remove(e.decoder, path), player := env.remove(e.player, path));
    SetDecoderInputStops(removed.(input := None), env.openable);
  }

  /** REMOVE_ALL: stop and invalidate when active, then empty both trees. */
  function DoRemoveAll(e: Engine): (r: Transition)
    ensures Leaves(r.engine.decoder) == [] && Leaves(r.engine.player) == []
    ensures !IsValid(r.engine.decoder) && !IsValid(r.engine.player)
    ensures Shape(r.engine.decoder) == Shape(r.engine.player)
    ensures Active(e.state) ==> r.engine.state == Stopped && r.engine.input.None?
    ensures !Active(e.state) ==> r.engine.state == e.state && r.engine.input == e.input && r.effects == []
    ensures Active(e.state) ==> r.effects == [StopOutput, StopDecoding, SetInput(None)]
    ensures r.engine.volume == e.volume
  {
    var halted := if Active(e.state) then e.(input := None, state := Stopped) else e;
    Transition(halted.(decoder := Clear(e.decoder), player := Clear(e.player)), HaltEffects(e.state))
  }

  /**
   DECODER_FINISHED: step the decoder cursor; when it cannot move, drop the
   input; otherwise reload the input there and restart decoding if one opened.
   */
  function DoDecoderFinished(e: Engine, env: Env): (r: Transition)
    ensures r.engine.input == FirstOpenable(Trail(e.decoder)[1..], env.openable)
    ensures !Queue.Next(e.decoder).0 ==> r.engine.decoder == e.decoder && r.effects == [SetInput(None)]
    ensures r.engine.input.Some? ==> SelectedFile(r.engine.decoder) == r.engine.input
    ensures r.engine == e.(decoder := r.engine.decoder, input := r.engine.input)
    ensures Shape(r.engine.decoder) == Shape(e.decoder)
    ensures StartDecoding in r.effects <==> r.engine.input.Some?
    ensures StartOutput !in r.effects
    ensures StopOutput !in r.effects
  {
    var step := Queue.Next(e.decoder);
    if !step.0 then
      Transition(e.(input := None), [SetInput(None)])
    else
      assert Trail(e.decoder)[1..] == Trail(step.1);
      var t := SetDecoderInput(e.(decoder := step.1), env.openable);
      if t.engine.input.Some? then Transition(t.engine, t.effects + [StartDecoding]) else t
  }

  /**
   DECODER_FINISHED moves the decoder cursor forward: one step of `next`, then
   on along the trail past positions holding no file that opens only.
   */
  lemma DecoderFinishedAdvances(e: Engine, env: Env)
    ensures Queue.Next(e.decoder).0 ==>
      Skipped(Queue.Next(e.decoder).1, DoDecoderFinished(e, env).engine.decoder, env.openable)
  {
    if Queue.Next(e.decoder).0 {
      SetDecoderInputStops(e.(decoder := Queue.Next(e.decoder).1), env.openable);
    }
  }

  /**
   Where PLAY leaves the decoder cursor of a controller that was not playing:
   at its start position (the first file when the cursor was invalid) when an
   input is kept, otherwise further along the trail from there, past
   positions holding no file that opens only.
   */
  lemma PlayPosition(e: Engine, env: Env)
    requires e.state != Playing
    ensures var start := if IsValid(e.decoder) then e.decoder else Reset(e.decoder, First);
      && (e.input.Some? ==> DoPlay(e, env).engine.decoder == start)
      && (e.input.None? ==> Skipped(start, DoPlay(e, env).engine.decoder, env.openable))
  {
    var e1 := if IsValid(e.decoder) then e
              else e.(decoder := Reset(e.decoder, First), player := Reset(e.player, First));
    SetDecoderInputStops(e1, env.openable);
  }

  /**
   SONG_FINISHED: step the player cursor to the next position of its trail;
   when it cannot move, the controller stops.
   */
  function DoSongFinished(e: Engine): (r: Transition)
    ensures r.effects == []
    ensures Queue.Next(e.player).0 ==>
      (r.engine.state == e.state && |Trail(e.player)| > 1 && SelectedFile(r.engine.player) == Trail(e.player)[1])
    ensures !Queue.Next(e.player).0 ==> r.engine.state == Stopped && r.engine.player == e.player
    ensures Shape(r.engine.player) == Shape(e.player)
    ensures r.engine == e.(player := r.engine.player, state := r.engine.state)
  {
    var step := Queue.Next(e.player);
    if !step.0 then Transition(e.(state := Stopped), [])
    else Transition(e.(player := step.1), [])
  }

  /** SONG_FINISHED moves the player cursor exactly one position along its trail. */
  lemma SongFinishedAdvances(e: Engine)
    ensures Queue.Next(e.player).0 ==> Trail(DoSongFinished(e).engine.player) == Trail(e.player)[1..]
  {
    if Queue.Next(e.player).0 {
      TrailStep(e.player);
    }
  }

  /** One turn of the command loop. */
  function Step(e: Engine, cmd: Command, env: Env): (r: Transition)
    ensures SoundRemoval(env.remove) && Shape(e.decoder) == Shape(e.player) ==>
      Shape(r.engine.decoder) == Shape(r.engine.player)
    ensures r.engine.volume == e.volume
    ensures StartDecoding in r.effects ==> r.engine.input.Some?
    ensures StartOutput in r.effects ==> r.engine.state == Playing
    ensures StopOutput in r.effects ==> Active(e.state)
  {
    match cmd
    case Play => DoPlay(e, env)
    case Pause => DoPause(e)
    case Stop => DoStop(e)
    case Seek(seconds) => DoSeek(e, seconds, env)
    case Prev => DoMove(e, cmd, env)
    case Next => DoMove(e, cmd, env)
    case GoTo(_) => DoMove(e, cmd, env)
    case Remove(path) =>
      RemovalKeepsShape(env.remove, e.decoder, e.player, path);
      DoRemove(e, path, env)
    case RemoveAll => DoRemoveAll(e)
    case DecoderFinished => DoDecoderFinished(e, env)
    case SongFinished => DoSongFinished(e)
  }
}

=== FILE: controller_lemmas.dfy ===
/**
 Properties of the controller over several commands: the invariant every
 command keeps, what STOP followed by PLAY, PAUSE followed by PLAY and
 NEXT followed by PREV do, where PLAY starts on a fresh queue, and the
 inputs that show the three defects modelled by the `AsWritten` members.
 */
module ControllerLemmas {
  import opened Queue
  import opened QueueLemmas
  import opened Traversal
  import opened Controller

  /**
   What holds of the controller between commands: both trees have one shape,
   the volume is a percentage, and the decoder's input is a file that opens.
   */
  predicate Inv(e: Engine, openable: LibraryFile -> bool)
  {
    && Shape(e.decoder) == Shape(e.player)
    && 0 <= e.volume <= 100
    && (e.input.Some? ==> openable(e.input.value))
  }

  lemma InitialInv(openable: LibraryFile -> bool)
    ensures Inv(Initial(), openable)
  {
  }

  /** Adding to the queue keeps the invariant. */
  lemma EnqueueKeepsInv(e: Engine, a: Addition, openable: LibraryFile -> bool)
    requires Inv(e, openable)
    ensures Inv(Enqueue(e, a), openable)
  {
  }

  /** Every command keeps the invariant, given a removal that respects shapes. */
  lemma StepKeepsInv(e: Engine, cmd: Command, env: Env)
    requires Inv(e, env.openable) && SoundRemoval(env.remove)
    ensures Inv(Step(e, cmd, env).engine, env.openable)
  {
  }

  /** The command loop run over a list of commands, collecting the worker calls of every turn in order. */
  function Run(e: Engine, cmds: seq<Command>, env: Env): (r: Transition)
    ensures r.engine.volume == e.volume
    ensures cmds == [] ==> r == Transition(e, [])
    decreases |cmds|
  {
    if cmds == [] then Transition(e, [])
    else
      var t := Step(e, cmds[0], env);
      var u := Run(t.engine, cmds[1..], env);
      Transition(u.engine, t.effects + u.effects)
  }

  /** Any run of commands keeps the invariant. */
  lemma {:induction false} RunKeepsInv(e: Engine, cmds: seq<Command>, env: Env)
    requires Inv(e, env.openable) && SoundRemoval(env.remove)
    ensures Inv(Run(e, cmds, env).engine, env.openable)
    decreases |cmds|
  {
    if cmds != [] {
      StepKeepsInv(e, cmds[0], env);
      RunKeepsInv(Step(e, cmds[0], env).engine, cmds[1..], env);
    }
  }

  /* ---------------------------------------------------------------------------
     Volume
     --------------------------------------------------------------------------- */

  /** One step up then one step down is no change, below the ceiling. */
  lemma IncThenDec(e: Engine)
    requires 0 <= e.volume < 100
    ensures DecVolume(IncVolume(e)) == e
  {
  }

  /** One step down then one step up is no change, above the floor. */
  lemma DecThenInc(e: Engine)
    requires 0 < e.volume <= 100
    ensures IncVolume(DecVolume(e)) == e
  {
  }

  /* ---------------------------------------------------------------------------
     Commands in sequence
     --------------------------------------------------------------------------- */

  /**
   STOP then PLAY resumes at the song being heard when it stopped: STOP moves
   the decoder cursor to the player's, and PLAY loads the file found there.
   */
  lemma StopThenPlayResumesCurrent(e: Engine, env: Env)
    requires Inv(e, env.openable) && Active(e.state)
    requires Opens(SelectedFile(e.player), env.openable)
    ensures
      var stopped := Step(e, Stop, env).engine;
      var played := Step(stopped, Play, env);
      && played.engine.state == Playing
      && played.engine.input == SelectedFile(e.player)
      && played.engine.player == e.player
      && played.effects == [SetInput(SelectedFile(e.player)), StartDecoding, StartOutput]
  {
    StepDispatch(e, Stop, env);
    var stopped := Step(e, Stop, env).engine;
    StepDispatch(stopped, Play, env);
    assert Get(stopped.decoder) == Get(e.player);
    SamePathSameFile(stopped.decoder, e.player);
    assert IsValid(e.player);
    assert IsValid(stopped.decoder) by {
      GetValid(e.player);
    }
    var t := SetDecoderInput(stopped, env.openable);
    assert Trail(stopped.decoder)[0] == SelectedFile(e.player);
  }

  /** PAUSE then PLAY restarts both workers on the same input and changes nothing else. */
  lemma PauseThenPlay(e: Engine, env: Env)
    requires e.state == Playing && e.input.Some? && IsValid(e.decoder)
    ensures Step(Step(e, Pause, env).engine, Play, env) == Transition(e, StartPlayback())
    ensures Run(e, [Pause, Play], env) == Transition(e, [PauseOutput, StartDecoding, StartOutput])
  {
    assert [Pause, Play][1..] == [Play];
  }

  /**
   DECODER_FINISHED on the last file of the queue leaves a PLAYING controller
   with no input while the player still plays that file. PAUSE then PLAY from
   there loads the last file again and restarts both workers, so the decoder
   decodes it a second time.
   */
  lemma PauseThenPlayAfterDecoderEnd(e: Engine, env: Env)
    requires e.state == Playing && IsValid(e.decoder) && !Queue.Next(e.decoder).0
    requires Opens(SelectedFile(e.decoder), env.openable)
    ensures
      var d := Step(e, DecoderFinished, env);
      var p := Step(d.engine, Pause, env);
      var q := Step(p.engine, Play, env);
      && d.engine == e.(input := None) && d.effects == [SetInput(None)]
      && p.effects == [PauseOutput]
      && q.engine == e.(input := SelectedFile(e.decoder))
      && q.effects == [SetInput(SelectedFile(e.decoder)), StartDecoding, StartOutput]
  {
    StepDispatch(e, DecoderFinished, env);
    var d := Step(e, DecoderFinished, env);
    assert d.engine == e.(input := None);
    StepDispatch(d.engine, Pause, env);
    var p := Step(d.engine, Pause, env);
    assert p.engine == e.(input := None, state := Paused);
    StepDispatch(p.engine, Play, env);
    var t := SetDecoderInput(p.engine, env.openable);
    assert t.engine.input == SelectedFile(e.decoder);
  }

  /**
   PLAY with an empty queue and no input loads nothing and starts nothing;
   the controller keeps its state.
   */
  lemma PlayOnEmptyQueue(e: Engine, env: Env)
    requires e.decoder.items == [] && e.input.None?
    ensures Step(e, Play, env).engine.state == e.state
    ensures Step(e, Play, env).engine.input.None?
    ensures StartDecoding !in Step(e, Play, env).effects && StartOutput !in Step(e, Play, env).effects
  {
    assert !IsValid(e.decoder) && Reset(e.decoder, First) == e.decoder;
    assert Trail(e.decoder) == [None];
  }

  /**
   REMOVE of the song a STOPPED controller was on reloads the decoder's input
   from the next file; REMOVE_ALL while STOPPED keeps that input; PLAY then
   plays it, although the queue is empty.
   */
  lemma PlayAfterRemoveAll(f: LibraryFile, g: LibraryFile)
    ensures
      var pl: Playlist := Container(PlaylistKind, [File(f), File(g)], 0);
      var env := Env(x => true, DropFirst);
      var removed := Step(Engine(Stopped, None, pl, pl, 100), Remove([0]), env);
      var cleared := Step(removed.engine, RemoveAll, env);
      var played := Step(cleared.engine, Play, env);
      && removed.engine.input == Some(g) && removed.engine.state == Stopped
      && cleared.engine.input == Some(g) && cleared.effects == []
      && Leaves(cleared.engine.player) == [] && Leaves(cleared.engine.decoder) == []
      && played.engine == cleared.engine.(state := Playing)
      && played.effects == [StartDecoding, StartOutput]
  {
    var rest: Playlist := Container(PlaylistKind, [File(g)], 0);
    var env := Env(x => true, DropFirst);
    var e1 := Engine(Stopped, Some(g), rest, rest, 100);
    var empty: Playlist := Container(PlaylistKind, [], -1);
    var e2 := Engine(Stopped, Some(g), empty, empty, 100);
    RemoveFirstWhileStopped(f, g, env);
    StepDispatch(e1, RemoveAll, env);
    assert Step(e1, RemoveAll, env) == Transition(e2, []);
    StepDispatch(e2, Play, env);
  }

  /** A removal that drops the playlist's first child and leaves the cursor index as it was. */
  function DropFirst(p: Playlist, path: seq<int>): Playlist
  {
    if p.items == [] then p else p.(items := p.items[1..])
  }

  /** The first turn of `PlayAfterRemoveAll`: REMOVE of the current song while STOPPED. */
  lemma RemoveFirstWhileStopped(f: LibraryFile, g: LibraryFile, env: Env)
    requires env.remove == DropFirst && env.openable(g)
    ensures
      var pl: Playlist := Container(PlaylistKind, [File(f), File(g)], 0);
      var rest: Playlist := Container(PlaylistKind, [File(g)], 0);
      Step(Engine(Stopped, None, pl, pl, 100), Remove([0]), env) ==
        Transition(Engine(Stopped, Some(g), rest, rest, 100), [SetInput(None), SetInput(Some(g))])
  {
    var pl: Playlist := Container(PlaylistKind, [File(f), File(g)], 0);
    var rest: Playlist := Container(PlaylistKind, [File(g)], 0);
    var e := Engine(Stopped, None, pl, pl, 100);
    assert Get(pl) == [0];
    assert RemovesCurrent(pl, [0]);
    assert DropFirst(pl, [0]) == rest;
    assert SelectedFile(rest) == Some(g);
    assert Step(e, Remove([0]), env) == DoRemove(e, [0], env);
  }

  /** GOTO to the current path leaves the player cursor where it is. */
  lemma GoToCurrent(e: Engine, env: Env)
    ensures Step(e, GoTo(Get(e.player)), env).engine.player == e.player
  {
    SetOwnPath(e.player);
  }

  /** The turns of the commands that take no argument, each as its own function. */
  lemma StepDispatch(e: Engine, cmd: Command, env: Env)
    ensures cmd == Play ==> Step(e, cmd, env) == DoPlay(e, env)
    ensures cmd == Pause ==> Step(e, cmd, env) == DoPause(e)
    ensures cmd == Stop ==> Step(e, cmd, env) == DoStop(e)
    ensures cmd == RemoveAll ==> Step(e, cmd, env) == DoRemoveAll(e)
    ensures cmd == DecoderFinished ==> Step(e, cmd, env) == DoDecoderFinished(e, env)
  {
  }

  /** PREV, NEXT and GOTO turns are `DoMove`. */
  lemma StepIsMove(e: Engine, cmd: Command, env: Env)
    requires cmd.Prev? || cmd.Next? || cmd.GoTo?
    ensures Step(e, cmd, env) == DoMove(e, cmd, env)
  {
  }

  /**
   While stopped, NEXT then PREV brings the player cursor back to the song it
   was on, and the decoder cursor follows it.
   */
  lemma NextThenPrevWhileStopped(e: Engine, env: Env)
    requires e.state == Stopped && Shape(e.decoder) == Shape(e.player)
    requires SelectedFile(e.player).Some? && Queue.Next(e.player).0
    ensures
      var r := Step(Step(e, Next, env).engine, Prev, env).engine;
      Get(r.player) == Get(e.player) && Get(r.decoder) == Get(e.player) && r.state == Stopped
  {
    StepIsMove(e, Next, env);
    var m := DoMove(e, Next, env).engine;
    assert m.player == Queue.Next(e.player).1 && m.state == Stopped;
    assert Shape(m.decoder) == Shape(m.player);
    StepIsMove(m, Prev, env);
    var r := DoMove(m, Prev, env).engine;
    assert r.player == Queue.Prev(m.player).1;
    NextThenPrev(e.player);
  }

  /**
   PLAY on a queue that was never started (both cursors invalid, no input)
   loads the first file of the queue, in depth-first order, that opens; it
   starts playing exactly when there is one.
   */
  lemma PlayFromScratch(e: Engine, env: Env)
    requires e.state != Playing && e.input.None? && !IsValid(e.decoder)
    requires NoEmptyContainers(e.decoder)
    ensures Step(e, Play, env).engine.input == FirstOpenable(Somes(Leaves(e.decoder)), env.openable)
    ensures Step(e, Play, env).engine.state == Playing <==>
      exists j :: 0 <= j < |Leaves(e.decoder)| && env.openable(Leaves(e.decoder)[j])
  {
    TrailFromFirst(e.decoder);
    var fs := Leaves(e.decoder);
    var r := FirstOpenable(Somes(fs), env.openable);
    if exists j :: 0 <= j < |fs| && env.openable(fs[j]) {
      var j :| 0 <= j < |fs| && env.openable(fs[j]);
      assert Opens(Somes(fs)[j], env.openable);
    }
  }

  /* ---------------------------------------------------------------------------
     Inputs that show the defects of the code as written
     --------------------------------------------------------------------------- */

  /**
   An album added with no files, then PLAY: the cursor of the playlist is
   valid but the album's is not, so `setDecoderInput` as written reads past
   the album's children. The corrected reload finds no input and PLAY leaves
   the controller stopped.
   */
  lemma EmptyAlbumThenPlay(env: Env)
    ensures
      var e := Enqueue(Initial(), WholeAlbum(7, []));
      var reset := e.(decoder := Reset(e.decoder, First), player := Reset(e.player, First));
      && SetDecoderInputAsWritten(reset, env.openable).None?
      && Step(e, Play, env).engine.state == Stopped
      && Step(e, Play, env).engine.input.None?
      && Step(e, Play, env).effects == [SetInput(None)]
  {
    var e := Enqueue(Initial(), WholeAlbum(7, []));
    var album := MakeAlbum(AlbumKind(7), []);
    assert e.decoder == Container(PlaylistKind, [album], -1);
    var d := Reset(e.decoder, First);
    assert d == Container(PlaylistKind, [album], 0);
    assert SelectedFile(d).None?;
    assert !Queue.Next(d).0;
    assert Trail(d) == [None];
  }

  /**
   GOTO with a path that ends at an album: `set` as written reads one entry
   past the end of the path; the corrected `Set` leaves the album's cursor
   invalid.
   */
  lemma ShortGoToPath(f: LibraryFile)
    ensures
      var pl: Playlist := Container(PlaylistKind, [MakeAlbum(AlbumKind(1), [f])], -1);
      && SetAsWritten(pl, [0]).None?
      && SetAsWritten(pl, []).None?
      && Get(Set(pl, [0])) == [0, -1]
      && SelectedFile(Set(pl, [0])).None?
  {
    var album := MakeAlbum(AlbumKind(1), [f]);
    var pl: Playlist := Container(PlaylistKind, [album], -1);
    assert Set(pl, [0]) == Container(PlaylistKind, [Set(album, [])], 0);
    assert Set(album, []) == album.(index := -1);
    assert Get(album.(index := -1)) == [-1];
  }

  /**
   SEEK while playing a file that no longer opens: as written the workers are
   started again with no input; corrected, the controller stops.
   */
  lemma SeekWithNothingToOpen(f: LibraryFile)
    ensures
      var pl: Playlist := Container(PlaylistKind, [File(f)], 0);
      var e := Engine(Playing, Some(f), pl, pl, 50);
      var env := Env(x => false, (p, q) => p);
      && DoSeekAsWritten(e, 30, env).engine.input.None?
      && StartDecoding in DoSeekAsWritten(e, 30, env).effects
      && DoSeekAsWritten(e, 30, env).engine.state == Playing
      && DoSeek(e, 30, env).engine.state == Stopped
      && StartDecoding !in DoSeek(e, 30, env).effects
  {
    var pl: Playlist := Container(PlaylistKind, [File(f)], 0);
    assert SelectedFile(pl) == Some(f);
    assert !Queue.Next(pl.items[0]).0;
    assert !Queue.Next(pl).0;
    assert Trail(pl) == [Some(f)];
  }
}

=== FILE: queue.dfy ===
/**
 The play queue of the playback engine: a tree whose root is a playlist, whose
 inner nodes are albums or directories and whose leaves are library files.
 Every container keeps a cursor `index` into its children; the chain of cursors
 from the root down selects the file being decoded or played. The value
 `-1` means "nothing selected", but `set` stores whatever index it is given,
 so the cursor is an unconstrained integer and validity is checked on use.
 */
module Queue {

  datatype Option<T> = None | Some(value: T)

  /** A file record of the music library; the queue only carries it around. */
  datatype LibraryFile = LibraryFile(id: int, path: string, name: string)

  /** The library record a container was built from. */
  datatype Kind = DirectoryKind(directory: int) | AlbumKind(album: int) | PlaylistKind

  datatype Item =
    | File(file: LibraryFile)
    | Container(kind: Kind, items: seq<Item>, index: int)

  /** The root of a queue tree. */
  type Playlist = t: Item | t.Container? && t.kind == PlaylistKind
    witness Container(PlaylistKind, [], -1)

  datatype Position = First | Last

  /* ---------------------------------------------------------------------------
     Reference notions: the shape of a tree, its files, path navigation
     --------------------------------------------------------------------------- */

  /** The tree with every cursor cleared: what the decoder and player trees share. */
  function Shape(t: Item): (r: Item)
    ensures r.Container? == t.Container?
    ensures t.Container? ==> r.kind == t.kind && |r.items| == |t.items|
  {
    match t
    case File(_) => t
    case Container(k, items, _) =>
      Container(k, seq(|items|, j requires 0 <= j < |items| => Shape(items[j])), -1)
  }

  /** All files of the tree in depth-first order. */
  function Leaves(t: Item): seq<LibraryFile>
  {
    match t
    case File(f) => [f]
    case Container(_, items, _) => LeavesOf(items)
  }

  function LeavesOf(items: seq<Item>): seq<LibraryFile>
    decreases items
  {
    if items == [] then [] else Leaves(items[0]) + LeavesOf(items[1..])
  }

  /** The node a path of child indices leads to, if every index is in range. */
  function At(t: Item, path: seq<int>): Option<Item>
  {
    if path == [] then Some(t)
    else match t
      case File(_) => None
      case Container(_, items, _) =>
        if 0 <= path[0] < |items| then At(items[path[0]], path[1..]) else None
  }

  /* ---------------------------------------------------------------------------
     ContainerQueueItem / File operations
     --------------------------------------------------------------------------- */

  /** A freshly constructed container: no children, nothing selected. */
  function NewContainer(kind: Kind): (r: Item)
    ensures r.Container? && r.kind == kind && r.items == [] && r.index == -1
    ensures Leaves(r) == [] && !IsValid(r) && Get(r) == [-1] && SelectedFile(r) == None
  {
    Container(kind, [], -1)
  }

  /** A file is always valid; a container is valid when its cursor is in range. */
  predicate IsValid(t: Item)
  {
    match t
    case File(_) => true
    case Container(_, items, index) => 0 <= index < |items|
  }

  /** A container's cursor is valid exactly when it addresses one of its children. */
  lemma ValidAddressesChild(t: Item)
    ensures IsValid(t) <==> t.File? || At(t, [t.index]).Some?
  {
  }

  /**
   The cursor chain as a path: one index per container level, down to a file
   or through the first level whose cursor is out of range.
   */
  function Get(t: Item): (path: seq<int>)
    ensures t.File? ==> path == []
    ensures t.Container? ==> |path| >= 1 && path[0] == t.index
  {
    match t
    case File(_) => []
    case Container(_, items, index) =>
      [index] + (if IsValid(t) then Get(items[index]) else [])
  }

  /**
   Moves the cursors along `path`, one entry per container level. A level the
   path does not reach gets cursor -1 (nothing selected); see `SetAsWritten`
   for what the source does there.
   */
  function Set(t: Item, path: seq<int>): (r: Item)
    ensures Shape(r) == Shape(t)
    ensures Get(r) <= path + [-1]
  {
    match t
    case File(_) => t
    case Container(k, items, _) =>
      var i := if path == [] then -1 else path[0];
      var rest := if path == [] then [] else path[1..];
      if 0 <= i < |items| then
        var c := Set(items[i], rest);
        ShapeUpdate(k, items, i, c, i, t.index);
        var r := Container(k, items[i := c], i);
        assert Get(r) == [i] + Get(c);
        r
      else
        ShapeUpdate(k, items, -1, t, i, t.index);
        Container(k, items, i)
  }

  /**
   `set` as written: it reads the front of the path at every container level,
   which is undefined once the path is used up. `None` stands for that read.
   */
  function SetAsWritten(t: Item, path: seq<int>): (r: Option<Item>)
    ensures r.Some? ==> r.value == Set(t, path)
    ensures r.Some? <==> |Get(Set(t, path))| <= |path|
  {
    match t
    case File(_) => Some(t)
    case Container(k, items, _) =>
      if path == [] then None
      else if 0 <= path[0] < |items| then
        match SetAsWritten(items[path[0]], path[1..])
        case None => None
        case Some(c) => Some(Container(k, items[path[0] := c], path[0]))
      else Some(Container(k, items, path[0]))
  }

  /** Selects the first or last child of every level along the new cursor chain. */
  function Reset(t: Item, pos: Position): (r: Item)
    ensures Shape(r) == Shape(t)
    ensures t.Container? && t.items == [] ==> r == t
    ensures t.Container? && t.items != [] ==>
      r.index == (if pos == First then 0 else |t.items| - 1)
  {
    match t
    case File(_) => t
    case Container(k, items, _) =>
      if items == [] then t
      else
        var i := if pos == First then 0 else |items| - 1;
        var c := Reset(items[i], pos);
        ShapeUpdate(k, items, i, c, i, t.index);
        Container(k, items[i := c], i)
  }

  /**
   Steps the cursor chain one file back in depth-first order. Returns whether
   it moved. The source writes the child's result back in place; a child
   whose step fails is unchanged, so the container keeps its children here
   (`QueueLemmas.PrevInPlaceIsPrev` proves the two forms equal).
   */
  function Prev(t: Item): (r: (bool, Item))
    ensures !r.0 ==> r.1 == t
    ensures r.0 ==> IsValid(t) && IsValid(r.1)
    ensures Shape(r.1) == Shape(t)
  {
    match t
    case File(_) => (false, t)
    case Container(k, items, i) =>
      if items == [] || !IsValid(t) then (false, t)
      else
        var step := Prev(items[i]);
        if step.0 then
          ShapeUpdate(k, items, i, step.1, i, i);
          (true, Container(k, items[i := step.1], i))
        else if i == 0 then (false, t)
        else
          var back := Reset(items[i - 1], Last);
          ShapeUpdate(k, items, i - 1, back, i - 1, i);
          (true, Container(k, items[i - 1 := back], i - 1))
  }

  /**
   Steps the cursor chain one file forward in depth-first order. Returns
   whether it moved. As for `Prev`, the child's result is not written back
   on failure (`QueueLemmas.NextInPlaceIsNext` proves this equal to the
   source's write-back form).
   */
  function Next(t: Item): (r: (bool, Item))
    ensures !r.0 ==> r.1 == t
    ensures r.0 ==> IsValid(t) && IsValid(r.1)
    ensures Shape(r.1) == Shape(t)
  {
    match t
    case File(_) => (false, t)
    case Container(k, items, i) =>
      if items == [] || !IsValid(t) then (false, t)
      else
        var step := Next(items[i]);
        if step.0 then
          ShapeUpdate(k, items, i, step.1, i, i);
          (true, Container(k, items[i := step.1], i))
        else if i == |items| - 1 then (false, t)
        else
          var fwd := Reset(items[i + 1], First);
          ShapeUpdate(k, items, i + 1, fwd, i + 1, i);
          (true, Container(k, items[i + 1 := fwd], i + 1))
  }

  /**
   The file the cursor chain selects. The source's `file()` indexes every
   level without a check; `None` marks a chain that reaches no file.
   */
  function SelectedFile(t: Item): Option<LibraryFile>
  {
    match t
    case File(f) => Some(f)
    case Container(_, items, index) =>
      if IsValid(t) then SelectedFile(items[index]) else None
  }

  /** A deep copy: every level keeps its cursor and every child is copied. */
  function Clone(t: Item): (r: Item)
    ensures r == t
  {
    match t
    case File(f) => File(f)
    case Container(k, items, index) => Container(k, CloneAll(items), index)
  }

  function CloneAll(items: seq<Item>): (r: seq<Item>)
    ensures r == items
    decreases items
  {
    if items == [] then [] else [Clone(items[0])] + CloneAll(items[1..])
  }

  /* ---------------------------------------------------------------------------
     Album / Directory construction and Playlist additions
     --------------------------------------------------------------------------- */

  /** One file leaf per library file, in the given order. */
  function FileItems(files: seq<LibraryFile>): (r: seq<Item>)
    ensures |r| == |files|
    ensures forall j :: 0 <= j < |r| ==> r[j] == File(files[j])
    ensures LeavesOf(r) == files
  {
    if files == [] then []
    else
      var r := [File(files[0])] + FileItems(files[1..]);
      assert r[1..] == FileItems(files[1..]);
      r
  }

  /** An album (or directory) node built from its files, nothing selected yet. */
  function MakeAlbum(kind: Kind, files: seq<LibraryFile>): (r: Item)
    requires !kind.PlaylistKind?
    ensures r.Container? && r.kind == kind && r.index == -1 && !IsValid(r)
    ensures |r.items| == |files| && forall j :: 0 <= j < |r.items| ==> r.items[j].File?
    ensures Leaves(r) == files
  {
    Container(kind, FileItems(files), -1)
  }

  /** Appends one child at the end of the playlist; nothing else changes. */
  function Append(pl: Playlist, child: Item): (r: Playlist)
    ensures r.index == pl.index
    ensures |r.items| == |pl.items| + 1
    ensures r.items[..|pl.items|] == pl.items && r.items[|pl.items|] == child
    ensures Leaves(r) == Leaves(pl) + Leaves(child)
  {
    var r := Container(PlaylistKind, pl.items + [child], pl.index);
    LeavesOfAppend(pl.items, child);
    r
  }

  function AddFile(pl: Playlist, f: LibraryFile): (r: Playlist)
    ensures |r.items| == |pl.items| + 1
    ensures r.index == pl.index && r.items[..|pl.items|] == pl.items
    ensures Leaves(r) == Leaves(pl) + [f]
    ensures r.items[|pl.items|] == File(f)
  {
    Append(pl, File(f))
  }

  function AddAlbum(pl: Playlist, album: int, files: seq<LibraryFile>): (r: Playlist)
    ensures |r.items| == |pl.items| + 1
    ensures r.index == pl.index && r.items[..|pl.items|] == pl.items
    ensures Leaves(r) == Leaves(pl) + files
    ensures r.items[|pl.items|] == MakeAlbum(AlbumKind(album), files)
  {
    Append(pl, MakeAlbum(AlbumKind(album), files))
  }

  function AddDirectory(pl: Playlist, directory: int, files: seq<LibraryFile>): (r: Playlist)
    ensures |r.items| == |pl.items| + 1
    ensures r.index == pl.index && r.items[..|pl.items|] == pl.items
    ensures Leaves(r) == Leaves(pl) + files
    ensures r.items[|pl.items|] == MakeAlbum(DirectoryKind(directory), files)
  {
    Append(pl, MakeAlbum(DirectoryKind(directory), files))
  }

  /** Empties the playlist and clears its cursor. */
  function Clear(pl: Playlist): (r: Playlist)
    ensures Leaves(r) == [] && !IsValid(r) && r.index == -1
    ensures r.items == []
  {
    NewContainer(PlaylistKind)
  }

  /* ---------------------------------------------------------------------------
     Helper lemmas
     --------------------------------------------------------------------------- */

  /** Replacing one child by a tree of the same shape keeps the container's shape. */
  lemma ShapeUpdate(k: Kind, items: seq<Item>, i: int, c: Item, a: int, b: int)
    requires 0 <= i < |items| ==> Shape(c) == Shape(items[i])
    ensures 0 <= i < |items| ==> Shape(Container(k, items[i := c], a)) == Shape(Container(k, items, b))
    ensures Shape(Container(k, items, a)) == Shape(Container(k, items, b))
  {
    if 0 <= i < |items| {
      var s := Shape(Container(k, items[i := c], a));
      var u := Shape(Container(k, items, b));
      assert forall j | 0 <= j < |items| :: s.items[j] == u.items[j];
    }
  }

  /** Trees of one shape have children of pairwise equal shapes. */
  lemma ShapeChild(a: Item, b: Item, j: int)
    requires Shape(a) == Shape(b) && a.Container? && 0 <= j < |a.items|
    ensures b.Container? && |b.items| == |a.items| && Shape(a.items[j]) == Shape(b.items[j])
  {
    assert Shape(a).items[j] == Shape(a.items[j]);
    assert Shape(b).items[j] == Shape(b.items[j]);
  }

  /** Appending the same child to two playlists of one shape keeps their shapes equal. */
  lemma AppendKeepsShape(a: Playlist, b: Playlist, child: Item)
    requires Shape(a) == Shape(b)
    ensures Shape(Append(a, child)) == Shape(Append(b, child))
  {
    var sa := Shape(Append(a, child));
    var sb := Shape(Append(b, child));
    forall j | 0 <= j < |a.items| + 1
      ensures sa.items[j] == sb.items[j]
    {
      if j < |a.items| {
        ShapeChild(a, b, j);
      }
    }
  }

  lemma LeavesOfAppend(items: seq<Item>, child: Item)
    ensures LeavesOf(items + [child]) == LeavesOf(items) + Leaves(child)
    decreases items
  {
    if items == [] {
      assert LeavesOf([child]) == Leaves(child) + LeavesOf([]);
    } else {
      assert (items + [child])[1..] == items[1..] + [child];
      LeavesOfAppend(items[1..], child);
    }
  }

  /**
   The path `Get` reads walks through containers only, and ends with the
   cursor of a container that is either out of range or selects a file.
   */
  lemma {:induction false} GetAddressesCursor(t: Item)
    requires t.Container?
    ensures var path := Get(t);
      && var last := At(t, path[..|path| - 1]);
      && last.Some? && last.value.Container?
      && last.value.index == path[|path| - 1]
      && (!IsValid(last.value) || last.value.items[last.value.index].File?)
  {
    var items, index := t.items, t.index;
    if IsValid(t) && items[index].Container? {
      var g := Get(items[index]);
      GetAddressesCursor(items[index]);
      assert Get(t)[..|Get(t)| - 1] == [index] + g[..|g| - 1];
      assert ([index] + g[..|g| - 1])[1..] == g[..|g| - 1];
    }
  }

  /**
   The file `SelectedFile` reports is the node the cursor path leads to, and
   one of the tree's files; no file is reported exactly when the path leads nowhere.
   */
  lemma {:induction false} SelectedFileAddressed(t: Item)
    ensures var r := SelectedFile(t);
      && At(t, Get(t)) == (if r.Some? then Some(File(r.value)) else None)
      && (r.Some? ==> r.value in Leaves(t))
  {
    match t
    case File(f) =>
    case Container(_, items, index) =>
      if IsValid(t) {
        SelectedFileAddressed(items[index]);
        assert Get(t)[1..] == Get(items[index]);
        LeavesOfContains(items, index);
      }
  }

  lemma LeavesOfContains(items: seq<Item>, i: int)
    requires 0 <= i < |items|
    ensures forall f :: f in Leaves(items[i]) ==> f in LeavesOf(items)
    decreases items
  {
    if i > 0 {
      LeavesOfContains(items[1..], i - 1);
    }
  }
}

=== FILE: queue_lemmas.dfy ===
/**
 Properties of the queue tree's cursor operations that relate several calls:
 the path round trip between `get` and `set`, where `reset` lands, and
 `next`/`prev` undoing each other.
 */
module QueueLemmas {
  import opened Queue

  /** Every container of the tree has at least one child. */
  predicate NoEmptyContainers(t: Item)
  {
    match t
    case File(_) => true
    case Container(_, items, _) =>
      |items| > 0 && forall j :: 0 <= j < |items| ==> NoEmptyContainers(items[j])
  }

  /**
   The path read from one tree, written into a tree of the same shape, reads
   back unchanged; the source's `set` never runs out of path on the way.
   */
  lemma {:induction false} GetSetRoundTrip(a: Item, b: Item)
    requires Shape(a) == Shape(b)
    ensures Get(Set(b, Get(a))) == Get(a)
    ensures SetAsWritten(b, Get(a)) == Some(Set(b, Get(a)))
  {
    match a
    case File(_) =>
    case Container(k, items, i) =>
      if IsValid(a) {
        ShapeChild(a, b, i);
        GetSetRoundTrip(items[i], b.items[i]);
        assert Get(a)[1..] == Get(items[i]);
      }
  }

  /** Writing a tree's own path back into it changes nothing. */
  lemma {:induction false} SetOwnPath(t: Item)
    ensures Set(t, Get(t)) == t
  {
    match t
    case File(_) =>
    case Container(k, items, i) =>
      if IsValid(t) {
        SetOwnPath(items[i]);
        assert Get(t)[1..] == Get(items[i]);
        assert items[i := items[i]] == items;
      }
  }

  /** Two trees of one shape whose cursors read the same path select the same file. */
  lemma {:induction false} SamePathSameFile(a: Item, b: Item)
    requires Shape(a) == Shape(b) && Get(a) == Get(b)
    ensures SelectedFile(a) == SelectedFile(b)
  {
    match a
    case File(_) =>
    case Container(k, items, i) =>
      assert b.index == Get(b)[0];
      if IsValid(a) {
        ShapeChild(a, b, i);
        GetValid(a);
        GetValid(b);
        assert Get(items[i]) == Get(a)[1..] == Get(b)[1..] == Get(b.items[i]);
        SamePathSameFile(items[i], b.items[i]);
      }
  }

  lemma LeavesOfFront(items: seq<Item>)
    requires items != []
    ensures LeavesOf(items) == Leaves(items[0]) + LeavesOf(items[1..])
  {
  }

  lemma LeavesOfBack(items: seq<Item>)
    requires items != []
    ensures LeavesOf(items) == LeavesOf(items[..|items| - 1]) + Leaves(items[|items| - 1])
  {
    assert items[..|items| - 1] + [items[|items| - 1]] == items;
    LeavesOfAppend(items[..|items| - 1], items[|items| - 1]);
  }

  /** On a tree without empty containers, `reset(FIRST)` selects the tree's first file. */
  lemma {:induction false} ResetSelectsFirst(t: Item)
    requires NoEmptyContainers(t)
    ensures |Leaves(t)| > 0 && SelectedFile(Reset(t, First)) == Some(Leaves(t)[0])
  {
    if t.Container? {
      var items := t.items;
      ResetSelectsFirst(items[0]);
      var c := Reset(items[0], First);
      var r := Reset(t, First);
      assert r == Container(t.kind, items[0 := c], 0);
      assert SelectedFile(r) == SelectedFile(c);
      LeavesOfFront(items);
    }
  }

  /** On a tree without empty containers, `reset(LAST)` selects the tree's last file. */
  lemma {:induction false} ResetSelectsLast(t: Item)
    requires NoEmptyContainers(t)
    ensures |Leaves(t)| > 0 && SelectedFile(Reset(t, Last)) == Some(Leaves(t)[|Leaves(t)| - 1])
  {
    if t.Container? {
      var items := t.items;
      var n := |items|;
      ResetSelectsLast(items[n - 1]);
      var c := Reset(items[n - 1], Last);
      var r := Reset(t, Last);
      assert r == Container(t.kind, items[n - 1 := c], n - 1);
      assert SelectedFile(r) == SelectedFile(c);
      LeavesOfBack(items);
    }
  }

  /** Nothing comes before the first file: `prev` right after `reset(FIRST)` fails. */
  lemma {:induction false} PrevFailsAtFirst(t: Item)
    ensures !Prev(Reset(t, First)).0
  {
    match t
    case File(_) =>
    case Container(k, items, _) =>
      if items != [] {
        PrevFailsAtFirst(items[0]);
        assert Reset(t, First).items[0] == Reset(items[0], First);
      }
  }

  /** Nothing comes after the last file: `next` right after `reset(LAST)` fails. */
  lemma {:induction false} NextFailsAtLast(t: Item)
    ensures !Next(Reset(t, Last)).0
  {
    match t
    case File(_) =>
    case Container(k, items, _) =>
      if items != [] {
        NextFailsAtLast(items[|items| - 1]);
        assert Reset(t, Last).items[|items| - 1] == Reset(items[|items| - 1], Last);
      }
  }

  /** A chain that selects a file and cannot step forward already sits at the last file. */
  lemma {:induction false} LastIsFixed(t: Item)
    requires SelectedFile(t).Some? && !Next(t).0
    ensures Reset(t, Last) == t
  {
    match t
    case File(_) =>
    case Container(k, items, i) =>
      LastIsFixed(items[i]);
      assert items[i := items[i]] == items;
  }

  /** A chain that selects a file and cannot step back already sits at the first file. */
  lemma {:induction false} FirstIsFixed(t: Item)
    requires SelectedFile(t).Some? && !Prev(t).0
    ensures Reset(t, First) == t
  {
    match t
    case File(_) =>
    case Container(k, items, i) =>
      FirstIsFixed(items[i]);
      assert items[i := items[i]] == items;
  }

  /** Reading the path of a container whose cursor is in range. */
  lemma GetValid(t: Item)
    requires t.Container? && IsValid(t)
    ensures Get(t) == [t.index] + Get(t.items[t.index])
  {
  }

  /**
   From a chain that selects a file, a successful `next` followed by `prev`
   succeeds and returns to the same path.
   */
  lemma {:induction false} NextThenPrev(t: Item)
    requires SelectedFile(t).Some? && Next(t).0
    ensures Prev(Next(t).1).0 && Get(Prev(Next(t).1).1) == Get(t)
  {
    var k, items, i := t.kind, t.items, t.index;
    var step := Next(items[i]);
    var c := step.1;
    GetValid(t);
    if step.0 {
      var u := Container(k, items[i := c], i);
      assert Next(t).1 == u;
      NextThenPrev(items[i]);
      var p := Prev(c).1;
      assert u.items[i] == c;
      var back := Container(k, items[i := c][i := p], i);
      assert Prev(u).1 == back;
      GetValid(back);
    } else {
      var fwd := Reset(items[i + 1], First);
      assert items[i := c] == items;
      var u := Container(k, items[i + 1 := fwd], i + 1);
      assert Next(t).1 == u;
      PrevFailsAtFirst(items[i + 1]);
      LastIsFixed(items[i]);
      var back := Container(k, items[i + 1 := fwd][i := items[i]], i);
      assert Prev(u).1 == back;
      GetValid(back);
    }
  }

  /**
   From a chain that selects a file, a successful `prev` followed by `next`
   succeeds and returns to the same path.
   */
  lemma {:induction false} PrevThenNext(t: Item)
    requires SelectedFile(t).Some? && Prev(t).0
    ensures Next(Prev(t).1).0 && Get(Next(Prev(t).1).1) == Get(t)
  {
    var k, items, i := t.kind, t.items, t.index;
    var c := Prev(items[i]).1;
    GetValid(t);
    if Prev(items[i]).0 {
      var u := Container(k, items[i := c], i);
      assert Prev(t).1 == u;
      PrevThenNext(items[i]);
      var n := Next(c).1;
      assert u.items[i] == c;
      var fwd := Container(k, items[i := c][i := n], i);
      assert Next(u).1 == fwd;
      GetValid(fwd);
    } else {
      PrevThenNextAcross(t);
    }
  }

  /** `next` on a container whose selected child can step forward steps that child. */
  lemma NextWithin(t: Item)
    requires t.Container? && IsValid(t) && Next(t.items[t.index]).0
    ensures Next(t) == (true, Container(t.kind, t.items[t.index := Next(t.items[t.index]).1], t.index))
  {
  }

  /**
   `prev` with the child's result written back, as the source mutates the
   child in place whether or not its step succeeded.
   */
  function PrevInPlace(t: Item): (bool, Item)
  {
    match t
    case File(_) => (false, t)
    case Container(k, items, i) =>
      if items == [] || !IsValid(t) then (false, t)
      else
        var step := PrevInPlace(items[i]);
        var written := items[i := step.1];
        if step.0 then (true, Container(k, written, i))
        else if i == 0 then (false, Container(k, written, i))
        else (true, Container(k, written[i - 1 := Reset(written[i - 1], Last)], i - 1))
  }

  /** `next` with the child's result written back; see `PrevInPlace`. */
  function NextInPlace(t: Item): (bool, Item)
  {
    match t
    case File(_) => (false, t)
    case Container(k, items, i) =>
      if items == [] || !IsValid(t) then (false, t)
      else
        var step := NextInPlace(items[i]);
        var written := items[i := step.1];
        if step.0 then (true, Container(k, written, i))
        else if i == |items| - 1 then (false, Container(k, written, i))
        else (true, Container(k, written[i + 1 := Reset(written[i + 1], First)], i + 1))
  }

  /** Writing the child's result back changes nothing: a failed step leaves every level as it was. */
  lemma {:induction false} PrevInPlaceIsPrev(t: Item)
    ensures PrevInPlace(t) == Prev(t)
  {
    match t
    case File(_) =>
    case Container(k, items, i) =>
      if items != [] && IsValid(t) {
        PrevInPlaceIsPrev(items[i]);
        if !Prev(items[i]).0 {
          assert items[i := items[i]] == items;
        }
      }
  }

  lemma {:induction false} NextInPlaceIsNext(t: Item)
    ensures NextInPlace(t) == Next(t)
  {
    match t
    case File(_) =>
    case Container(k, items, i) =>
      if items != [] && IsValid(t) {
        NextInPlaceIsNext(items[i]);
        if !Next(items[i]).0 {
          assert items[i := items[i]] == items;
        }
      }
  }

  /** `next` on a container whose selected child is exhausted moves to the next sibling. */
  lemma NextAcross(t: Item)
    requires t.Container? && 0 <= t.index < |t.items| - 1 && !Next(t.items[t.index]).0
    ensures Next(t) == (true, Container(t.kind, t.items[t.index + 1 := Reset(t.items[t.index + 1], First)], t.index + 1))
  {
  }

  /** `prev` on a container whose selected child is exhausted moves to the previous sibling. */
  lemma PrevAcross(t: Item)
    requires t.Container? && 0 < t.index < |t.items| && !Prev(t.items[t.index]).0
    ensures Prev(t) == (true, Container(t.kind, t.items[t.index - 1 := Reset(t.items[t.index - 1], Last)], t.index - 1))
  {
  }

  /** The case of `PrevThenNext` where `prev` moves to the previous sibling. */
  lemma PrevThenNextAcross(t: Item)
    requires SelectedFile(t).Some? && Prev(t).0
    requires t.Container? && !Prev(t.items[t.index]).0
    ensures Next(Prev(t).1).0 && Get(Next(Prev(t).1).1) == Get(t)
  {
    var k, items, i := t.kind, t.items, t.index;
    GetValid(t);
    PrevAcross(t);
    var u := Prev(t).1;
    NextFailsAtLast(items[i - 1]);
    NextAcross(u);
    FirstIsFixed(items[i]);
    var fwd := Next(u).1;
    assert fwd.items[i] == items[i];
    GetValid(fwd);
  }

  /**
   The worked example: album A with three files then album B with two, the
   cursor on A's last file; `next` moves to B's first file.
   */
  lemma NextCrossesAlbums(a: seq<LibraryFile>, b: seq<LibraryFile>)
    requires |a| == 3 && |b| == 2
    ensures
      var albumA := Container(AlbumKind(1), FileItems(a), 2);
      var albumB := MakeAlbum(AlbumKind(2), b);
      var pl := Container(PlaylistKind, [albumA, albumB], 0);
      Get(pl) == [0, 2] && Next(pl).0 && Get(Next(pl).1) == [1, 0]
        && SelectedFile(Next(pl).1) == Some(b[0])
  {
    var albumA := Container(AlbumKind(1), FileItems(a), 2);
    var albumB := MakeAlbum(AlbumKind(2), b);
    var pl := Container(PlaylistKind, [albumA, albumB], 0);
    assert albumA.items[2] == File(a[2]);
    GetValid(albumA);
    GetValid(pl);
    assert !Next(albumA).0 by {
      assert !Next(albumA.items[2]).0;
    }
    NextAcross(pl);
    var fwd := Reset(albumB, First);
    assert albumB.items[0] == File(b[0]);
    assert albumB.items[0 := File(b[0])] == albumB.items;
    assert fwd == albumB.(index := 0);
    GetValid(fwd);
    assert Next(pl).1 == Container(PlaylistKind, [albumA, fwd], 1);
    GetValid(Next(pl).1);
    assert SelectedFile(fwd) == Some(b[0]);
  }
}

=== FILE: traversal.dfy ===
/**
 Depth-first traversal of the queue tree by repeated `next`: a measure that
 every successful step decreases (so loops that call `next` until it fails
 terminate), the trail of selections such a loop sees, and the fact that from
 `reset(FIRST)` that trail lists exactly the tree's files in order.
 */
module Traversal {
  import opened Queue
  import opened QueueLemmas

  /** One unit per node. */
  function Size(t: Item): nat
  {
    match t
    case File(_) => 1
    case Container(_, items, _) => 1 + SizeOf(items)
  }

  function SizeOf(items: seq<Item>): nat
    decreases items
  {
    if items == [] then 0 else Size(items[0]) + SizeOf(items[1..])
  }

  /** Bounds the number of further successful `next` steps from the current cursor. */
  function Remaining(t: Item): nat
  {
    match t
    case File(_) => 0
    case Container(_, items, i) =>
      if 0 <= i < |items| then Remaining(items[i]) + SizeOf(items[i + 1..]) else 0
  }

  lemma SizeOfSplit(items: seq<Item>, i: int)
    requires 0 <= i < |items|
    ensures SizeOf(items[i..]) == Size(items[i]) + SizeOf(items[i + 1..])
  {
    assert items[i..][1..] == items[i + 1..];
  }

  lemma {:induction false} SizeOfSuffix(items: seq<Item>, i: int)
    requires 0 <= i <= |items|
    ensures SizeOf(items[i..]) <= SizeOf(items)
    decreases i
  {
    if i == 0 {
      assert items[0..] == items;
    } else {
      SizeOfSuffix(items[1..], i - 1);
      assert items[1..][i - 1..] == items[i..];
    }
  }

  lemma {:induction false} SizeOfUpdate(items: seq<Item>, i: int, c: Item)
    requires 0 <= i < |items| && Size(c) == Size(items[i])
    ensures SizeOf(items[i := c]) == SizeOf(items)
    decreases items
  {
    if i == 0 {
      assert items[0 := c][1..] == items[1..];
    } else {
      SizeOfUpdate(items[1..], i - 1, c);
      assert items[i := c][1..] == items[1..][i - 1 := c];
    }
  }

  lemma {:induction false} ResetKeepsSize(t: Item, pos: Position)
    ensures Size(Reset(t, pos)) == Size(t)
  {
    match t
    case File(_) =>
    case Container(k, items, _) =>
      if items != [] {
        var i := if pos == First then 0 else |items| - 1;
        ResetKeepsSize(items[i], pos);
        SizeOfUpdate(items, i, Reset(items[i], pos));
      }
  }

  lemma {:induction false} RemainingBelowSize(t: Item)
    ensures Remaining(t) < Size(t)
  {
    match t
    case File(_) =>
    case Container(_, items, i) =>
      if 0 <= i < |items| {
        RemainingBelowSize(items[i]);
        SizeOfSplit(items, i);
        SizeOfSuffix(items, i);
      }
  }

  /** Every successful `next` strictly decreases `Remaining`. */
  lemma {:induction false} NextDecreases(t: Item)
    ensures Next(t).0 ==> Remaining(Next(t).1) < Remaining(t)
  {
    if t.Container? && Next(t).0 {
      var k, items, i := t.kind, t.items, t.index;
      var c := Next(items[i]).1;
      if Next(items[i]).0 {
        NextDecreases(items[i]);
        assert Next(t).1 == Container(k, items[i := c], i);
        assert items[i := c][i + 1..] == items[i + 1..];
      } else {
        NextAcross(t);
        var fwd := Reset(items[i + 1], First);
        var u := Next(t).1;
        assert u.items[i + 2..] == items[i + 2..];
        RemainingBelowSize(fwd);
        ResetKeepsSize(items[i + 1], First);
        SizeOfSplit(items, i + 1);
      }
    }
  }

  /**
   The selections met by calling `next` until it fails, starting with the
   current one. `None` marks a position whose cursor chain reaches no file.
   */
  function Trail(t: Item): (r: seq<Option<LibraryFile>>)
    ensures |r| >= 1 && r[0] == SelectedFile(t)
    decreases Remaining(t)
  {
    if Next(t).0 then
      NextDecreases(t);
      [SelectedFile(t)] + Trail(Next(t).1)
    else [SelectedFile(t)]
  }

  lemma ConcatAssoc<T>(a: seq<T>, b: seq<T>, c: seq<T>)
    ensures a + (b + c) == (a + b) + c
  {
  }

  /** One step of the trail: the current selection, then the trail after a successful `next`. */
  lemma TrailStep(t: Item)
    requires Next(t).0
    ensures Trail(t) == [SelectedFile(t)] + Trail(Next(t).1)
  {
  }

  /** The trails of the children from index `j` on, each started from its first file. */
  function TrailsFrom(items: seq<Item>, j: nat): seq<Option<LibraryFile>>
    decreases |items| - j
  {
    if j >= |items| then [] else Trail(Reset(items[j], First)) + TrailsFrom(items, j + 1)
  }

  lemma {:induction false} TrailsFromSame(a: seq<Item>, b: seq<Item>, j: nat)
    requires |a| == |b| && forall m :: j <= m < |a| ==> a[m] == b[m]
    ensures TrailsFrom(a, j) == TrailsFrom(b, j)
    decreases |a| - j
  {
    if j < |a| {
      TrailsFromSame(a, b, j + 1);
    }
  }

  /**
   The trail of a container whose cursor is in range: the rest of the selected
   child's trail, then every later child's trail from its first file.
   */
  lemma {:induction false} TrailSplit(t: Item)
    requires t.Container? && IsValid(t)
    ensures Trail(t) == Trail(t.items[t.index]) + TrailsFrom(t.items, t.index + 1)
    decreases Remaining(t), 1
  {
    var items, i := t.items, t.index;
    if Next(items[i]).0 {
      TrailSplitWithin(t);
    } else if i < |items| - 1 {
      TrailSplitAcross(t);
    } else {
      assert Trail(t) == [SelectedFile(t)];
      assert Trail(items[i]) == [SelectedFile(items[i])];
    }
  }

  lemma {:induction false} TrailSplitWithin(t: Item)
    requires t.Container? && IsValid(t) && Next(t.items[t.index]).0
    ensures Trail(t) == Trail(t.items[t.index]) + TrailsFrom(t.items, t.index + 1)
    decreases Remaining(t), 0
  {
    var k, items, i := t.kind, t.items, t.index;
    var c := Next(items[i]).1;
    var u := Container(k, items[i := c], i);
    var rest := TrailsFrom(items, i + 1);
    NextWithin(t);
    NextDecreases(t);
    TrailSplit(u);
    assert u.items[i] == c;
    TrailsFromSame(items[i := c], items, i + 1);
    TrailStep(t);
    TrailStep(items[i]);
    assert SelectedFile(t) == SelectedFile(items[i]);
    ConcatAssoc([SelectedFile(t)], Trail(c), rest);
  }

  lemma {:induction false} TrailSplitAcross(t: Item)
    requires t.Container? && 0 <= t.index < |t.items| - 1 && !Next(t.items[t.index]).0
    ensures Trail(t) == Trail(t.items[t.index]) + TrailsFrom(t.items, t.index + 1)
    decreases Remaining(t), 0
  {
    var items, i := t.items, t.index;
    NextAcross(t);
    var u := Next(t).1;
    NextDecreases(t);
    TrailSplit(u);
    TrailsFromSame(u.items, items, i + 2);
    assert Trail(t) == [SelectedFile(t)] + Trail(u);
    assert Trail(items[i]) == [SelectedFile(items[i])];
    assert TrailsFrom(items, i + 1) == Trail(u.items[i + 1]) + TrailsFrom(items, i + 2);
  }

  function Somes(fs: seq<LibraryFile>): (r: seq<Option<LibraryFile>>)
    ensures |r| == |fs| && forall j :: 0 <= j < |fs| ==> r[j] == Some(fs[j])
  {
    seq(|fs|, j requires 0 <= j < |fs| => Some(fs[j]))
  }

  lemma SomesAppend(a: seq<LibraryFile>, b: seq<LibraryFile>)
    ensures Somes(a + b) == Somes(a) + Somes(b)
  {
  }

  /**
   Started from `reset(FIRST)` on a tree without empty containers, repeated
   `next` visits exactly the tree's files, in depth-first order, each once.
   */
  lemma {:induction false} TrailFromFirst(t: Item)
    requires NoEmptyContainers(t)
    ensures Trail(Reset(t, First)) == Somes(Leaves(t))
    decreases t, if t.Container? then |t.items| + 1 else 0
  {
    match t
    case File(f) =>
      assert Trail(t) == [Some(f)];
    case Container(k, items, _) =>
      var c := Reset(items[0], First);
      var r := Reset(t, First);
      assert r == Container(k, items[0 := c], 0);
      TrailSplit(r);
      TrailsFromSame(r.items, items, 1);
      TrailsFromLeaves(t, 0);
      assert items[0..] == items;
  }

  lemma {:induction false} TrailsFromLeaves(t: Item, j: nat)
    requires NoEmptyContainers(t) && t.Container? && j <= |t.items|
    ensures TrailsFrom(t.items, j) == Somes(LeavesOf(t.items[j..]))
    decreases t, |t.items| - j
  {
    var items := t.items;
    if j < |items| {
      TrailFromFirst(items[j]);
      TrailsFromLeaves(t, j + 1);
      assert items[j..][1..] == items[j + 1..];
      SomesAppend(Leaves(items[j]), LeavesOf(items[j + 1..]));
    } else {
      assert items[j..] == [];
    }
  }
}
